=== FILE: README.md ===
# OpenMOTION test app — histogram classifier and connector helpers in Dafny

This project models the pure decision logic of the OpenMOTION test application. It covers two areas.

- **The histogram shape classifier** (`histogram_classifier.py`) decides whether a camera histogram looks normal:
  - it smooths the bins with a 5-wide moving average;
  - it finds peaks with a height, distance and prominence filter;
  - it computes the weighted mean, skewness and kurtosis;
  - it searches for a secondary hump on the far half of either side of the main peak;
  - it combines these into a verdict, and maps that verdict to PASS, FAIL or LOW_LIGHT.
- **Three helpers of the Qt connector** (`motion_connector.py`):
  - the console firmware tag normaliser;
  - the connection-state decision `update_state`;
  - the cleaned weighted mean and sample deviation of a 1024-bin histogram.

Counts and smoothed values are exact `real`s. Histograms are `seq<real>`, peak positions are `seq<nat>` and tags are `string`s.

Skewness needs a square root, so it is kept as the pair (third central moment, variance). The test `|skew| > 0.2` becomes `m3² > 0.04·variance³`, which is exact.

numpy's NaN can only arise from a negative variance, that is, from negative bins. It is modelled as `UndefinedSkew` / `UndefinedKurt`, whose threshold comparisons are false, as NaN comparisons are.

An empty histogram reaches `np.max` on an empty smoothed array, which raises. So `CheckNonNormal` and `DetectSecondaryHump` return `Err(EmptySignal)` exactly when the histogram is empty. `ClassifyHistogram` returns it only for an empty dark capture. An empty light capture has mean 0.0, which is below 75, so it is LOW_LIGHT before the shape check runs.

Modules, one per concern:
- `Signals`: max, min, arg-max and ascending index lists.
- `Smoothing`: numpy's 'same'-mode convolution.
- `Peaks`: `find_peaks_simple`.
- `Moments`: mean, variance, skewness and kurtosis.
- `Hump`: `detect_secondary_hump`.
- `Classifier`: `check_non_normal` and `classify_histogram`.
- `FirmwareTags`, `ConnectorState` and `HistogramStats`: the connector helpers.

## Model

| member | source | states |
|---|---|---|
| Signals.Max | histogram_classifier.py:194 | `np.max` of a non-empty signal is an upper bound attained by some element |
| Signals.ArgMax | histogram_classifier.py:274 | `np.argmax` returns the first position of the maximum: everything is at most it, everything before it is strictly smaller |
| Signals.ArgMaxIsMax | histogram_classifier.py:270-274 | the arg-max position holds the value `np.max` reports |
| Signals.Min | histogram_classifier.py:71-74 | `np.min` of a non-empty slice is at most every bin and equals one of them |
| Signals.MinAtMost | histogram_classifier.py:71-74 | a side minimum is at most c exactly when some bin on that side is |
| Smoothing.Smooth | histogram_classifier.py:264-268 | smoothing keeps the histogram's length; a histogram of at most 5 bins comes back unchanged, a longer one is convolved in 'same' mode |
| Smoothing.FullConvolutionWindow | histogram_classifier.py:266 | the convolution sum with `ones(5)/5` at full index k only sees bins k−4..k, zero-padded |
| Smoothing.CentralEntries | histogram_classifier.py:266 | entry i + 2 of the full convolution is (Σ x[j] for j in i−2..i+2 within 0..N−1) / 5 |
| Smoothing.ConvolveSame | histogram_classifier.py:266 | 'same' mode keeps N outputs, and output i is (Σ x[j] for j in i−2..i+2 within 0..N−1) / 5 |
| Smoothing.SmoothKeepsSign | histogram_classifier.py:264-268 | smoothed non-negative counts are non-negative, and positive wherever a count is positive |
| Smoothing.SmoothZero | histogram_classifier.py:188-192 | an all-zero histogram smooths to itself |
| Peaks.LocalMaxima | histogram_classifier.py:37-40 | the candidates are ascending and are exactly the strict interior local maxima |
| Peaks.PrependHead | histogram_classifier.py:49-50 | keeping the head of an ascending candidate list before survivors drawn from its tail keeps it ascending |
| Peaks.FilterHeight | histogram_classifier.py:47-50 | a candidate survives exactly when its value reaches the height, and order is kept |
| Peaks.GreedyFrom | histogram_classifier.py:56-60 | the greedy loop extends the kept list, stays ascending and spaced by the distance, and drops a candidate only when it is closer than the distance to the last kept peak before it |
| Peaks.FilterDistance | histogram_classifier.py:55-61 | the first candidate is always kept, survivors are pairwise at least the distance apart, and every dropped candidate has a kept peak before it closer than the distance |
| Peaks.LeftMin | histogram_classifier.py:70-71 | the left minimum is at most every bin from 0 to the peak, and is one of them |
| Peaks.RightMin | histogram_classifier.py:73-74 | the right minimum is at most every bin from the peak to the end, and is one of them |
| Peaks.Prominence | histogram_classifier.py:76-78 | the prominence is non-negative and is the smaller of the peak's heights above the left and the right minimum |
| Peaks.ProminenceIsValleyDepth | histogram_classifier.py:65-83 | a peak's simplified prominence reaches p exactly when some bin at or left of it, and some bin at or right of it, lie at least p below it |
| Peaks.FilterProminence | histogram_classifier.py:65-86 | a candidate survives exactly when its prominence reaches the bound, in the original order |
| Peaks.ByHeight | histogram_classifier.py:47-50 | when a height is given every survivor reaches it; survivors are drawn from the candidates in order |
| Peaks.ByDistance | histogram_classifier.py:55-61 | when a distance is given the survivors are pairwise at least that far apart; survivors are drawn from the candidates in order |
| Peaks.ByProminence | histogram_classifier.py:65-84 | when a prominence is given every survivor reaches it; survivors are drawn from the candidates in order |
| Peaks.FindPeaks | histogram_classifier.py:19-86 | every returned index is a strict interior local maximum, reaches the height, is prominent enough, and the list is ascending and spaced by the distance |
| Peaks.UnboundedPeaksAreLocalMaxima | histogram_classifier.py:37-45 | with no bounds the result is exactly the set of strict local maxima |
| Peaks.HeightOnlyPeaks | histogram_classifier.py:47-53 | with only a height the result is exactly the local maxima reaching it |
| Peaks.DistanceOnlyPeaks | histogram_classifier.py:55-61 | with only a distance the leftmost local maximum is kept, and a local maximum is dropped only for a kept one closer than the distance before it |
| Peaks.AllBoundsPeaks | histogram_classifier.py:37-84 | with all three bounds the result holds exactly the local maxima that reach the height, survive the distance filter, and are prominent enough |
| Moments.Mean | histogram_classifier.py:89-105 | the weighted mean is 0.0 for a zero total, and otherwise times the total gives Σ i·h[i] |
| Moments.Variance | histogram_classifier.py:129 | the variance is 0.0 for a zero total, otherwise times the total gives Σ h[i]·(i − mean)², and it is non-negative for non-negative counts |
| Moments.CalculateSkewness | histogram_classifier.py:108-139 | the early `return 0.0` (`ZeroSkew`) is taken exactly when the total or the variance is zero; NaN exactly when the total is non-zero and the variance negative; a computed skewness carries the positive population variance, and its m3 times the total is Σ h[i]·(i − mean)³ |
| Moments.StdSumIsScaled | histogram_classifier.py:137 | Σ h[i]·((i − m)/s)^k equals Σ h[i]·(i − m)^k divided by s^k, for s ≠ 0 |
| Moments.SkewnessIsStandardised | histogram_classifier.py:134-137 | with std s > 0 and s² the variance, the source's Σ h·((i − mean)/std)³ / total equals m3 / s³ |
| Moments.SkewExceeds | histogram_classifier.py:290 | only a computed skewness can exceed a bound; with a zero bound it does so exactly when its third moment is non-zero |
| Moments.SkewExceedsIsAbsRatio | histogram_classifier.py:134-137 | for standard deviation s > 0 the square-root-free test holds exactly when m3 / s³ > t or −m3 / s³ > t, that is, when abs(skewness) > t |
| Moments.KurtosisDeviates | histogram_classifier.py:295-296 | the test holds exactly for a defined kurtosis whose distance from 3.0 exceeds the bound |
| Moments.CalculateKurtosis | histogram_classifier.py:142-171 | kurtosis is 3.0 for a zero total or zero variance, and NaN exactly when the variance is negative |
| Moments.TotalNonNegative | histogram_classifier.py:100 | non-negative counts have a non-negative total |
| Moments.FirstMomentBounds | histogram_classifier.py:104-105 | Σ i·h[i] lies between 0 and m·Σ h[i] when bins above m are empty |
| Moments.MeanWithinOccupiedBins | histogram_classifier.py:89-105 | the weighted mean of non-negative counts lies in [0, m] when no bin above m is occupied |
| Moments.MeanWithinBins | histogram_classifier.py:89-105 | the weighted mean of non-negative counts is a position within the histogram |
| Moments.CentralSumExpansion | histogram_classifier.py:127-128 | Σ h·(i−m)² = Σ i²h − 2m·Σ ih + m²·Σ h |
| Moments.EvenCentralSumNonNegative | histogram_classifier.py:127-168 | second and fourth central sums of non-negative counts are non-negative |
| Moments.CountsHaveDefinedMoments | histogram_classifier.py:121-168 | non-negative counts give a non-negative variance and never a NaN skewness or kurtosis |
| Moments.SingleBinIsDegenerate | histogram_classifier.py:121-164 | one occupied bin gives mean at that bin, variance 0, skewness 0.0 and kurtosis 3.0 |
| Moments.SecondSquaredBelowFourth | histogram_classifier.py:158-168 | (Σ h·(i−m)²)² ≤ Σ h · Σ h·(i−m)⁴ for non-negative counts (Cauchy–Schwarz) |
| Moments.KurtosisAtLeastOne | histogram_classifier.py:142-171 | the kurtosis of non-negative counts is defined and at least 1 (Pearson's bound) |
| Moments.MirrorFirstMoment | histogram_classifier.py:104-105 | reading the bins backwards turns Σ i·h[i] into (N − 1)·Σ h[i] − Σ i·h[i] |
| Moments.MirrorCentralSum | histogram_classifier.py:129-137 | reading the bins backwards about the reflected centre keeps even central sums and negates odd ones |
| Moments.MirrorMean | histogram_classifier.py:89-105 | reading the bins backwards keeps the total and reflects the mean to N − 1 − mean |
| Moments.MirrorVariance | histogram_classifier.py:121-131 | reading the bins backwards keeps the variance |
| Moments.MirrorFlipsSkewness | histogram_classifier.py:108-171 | reading the bins backwards negates the skewness and keeps the kurtosis |
| Moments.SymmetricHasNoSkew | histogram_classifier.py:108-139 | a histogram that reads the same backwards has its mean at the centre, a zero third moment, and never exceeds a skewness bound |
| Hump.LeftSide | histogram_classifier.py:203 | the left side is the first min(max_position, N) bins of the smoothed signal |
| Hump.RightSide | histogram_classifier.py:204 | the right side is the bins after max_position, in order |
| Hump.RegionAverage | histogram_classifier.py:219-221 | the window [max(0, i − 20), min(n, i + 20)), 20 bins before i and 19 after, contains it; the result times the window's length is the window's sum, and it lies between the window's smallest and largest bin, hence within the half's range |
| Hump.Average | histogram_classifier.py:221 | `np.mean` of a non-empty window times its length is its sum, and lies between its smallest and largest bin |
| Hump.TotalBounds | histogram_classifier.py:221 | bins between lo and hi sum to between n·lo and n·hi |
| Hump.HumpIn | histogram_classifier.py:213-222 | a far half yields its first maximum exactly when that maximum reaches the threshold and its window of 20 bins before and 19 after averages at least 0.7 of the threshold |
| Hump.LeftHump | histogram_classifier.py:209-224 | a left hump exists exactly when the left side is longer than 50 and its first half has a hump; it is that half's hump, reaches the threshold and is the maximum of that half |
| Hump.RightHump | histogram_classifier.py:226-240 | a right hump exists exactly when the right side is longer than 50 and its second half has a hump; it lies at max_position+1+len(right)//2 plus the position within the half, inside the signal |
| Hump.SideHump | histogram_classifier.py:209-242 | a hump is found exactly when either side has one; the left side's hump wins, and without one the right side's hump is the answer; none when both sides have at most 50 bins |
| Hump.SearchHump | histogram_classifier.py:194-242 | a hump is found exactly when the smoothed maximum is non-zero and a side has one at 0.15 of the maximum; with a non-zero maximum the answer is the side search at that threshold, and any hump reaches it |
| Hump.DetectSecondaryHump | histogram_classifier.py:174-242 | the detector raises exactly for an empty histogram; it reports (False, None) for a zero smoothed maximum or when both sides have at most 50 bins; otherwise the reported hump is the side search's answer on the smoothed signal at 0.15 of its maximum, inside the histogram |
| Classifier.InsertSorted | histogram_classifier.py:302-305 | appending a new position and sorting gives an ascending list with exactly one more element, holding the old ones and the new one |
| Classifier.BuildVerdict | histogram_classifier.py:282-311 | each reason is present exactly when its criterion holds, non-normal exactly when some reason is present, num_peaks is the number of positions, and the positions are the peaks plus the hump, ascending |
| Classifier.CheckNonNormal | histogram_classifier.py:245-311 | raises exactly for an empty histogram; a zero smoothed maximum gives (False, 0, [], [], 0.0, 3.0); every verdict keeps non-normal ⇔ reasons ≠ [] and num_peaks = len(positions), with ascending in-range positions |
| Classifier.ClassifyHistogram | histogram_classifier.py:314-339 | a dark capture is never LOW_LIGHT; a light capture is LOW_LIGHT exactly when its mean is below 75; otherwise an error exactly for an empty histogram and FAIL exactly when the verdict is non-normal; PASS exactly for a non-empty histogram that is not LOW_LIGHT and not non-normal |
| Classifier.VerdictFollowsCriteria | histogram_classifier.py:270-309 | a non-empty histogram is judged non-normal exactly when its smoothed maximum is non-zero and one of the four criteria holds, each reason appearing exactly when its criterion holds |
| Classifier.HumpJoinsPeakPositions | histogram_classifier.py:300-306 | a detected hump is among the peak positions, and every position is a detected peak or the hump |
| Classifier.ZeroSmoothedMaxMeansEmpty | histogram_classifier.py:264-272 | for non-negative counts the smoothed maximum is zero exactly when every bin is zero |
| Classifier.AllZeroHistogram | histogram_classifier.py:270-339 | an all-zero histogram gives the empty verdict, PASS when dark and LOW_LIGHT when light |
| Classifier.TotalOfZeros | histogram_classifier.py:98-103 | an all-zero histogram totals zero, so its mean is 0.0 |
| Classifier.SingleBinHasOnlyHumpReason | histogram_classifier.py:284-297 | a single occupied bin never triggers the multiple-peaks, skewness or kurtosis reason |
| Classifier.SingleBinLocalMax | histogram_classifier.py:37-45 | the only bin of a smoothed single-bin histogram that can be a strict local maximum is the occupied one |
| Classifier.SingleBinAtMostOnePeak | histogram_classifier.py:19-86 | the shape search finds at most one peak in a single-bin histogram |
| Classifier.VerdictOfSignal | histogram_classifier.py:264-311 | with a non-zero smoothed maximum the verdict is built from the shape peaks, the two moments and the hump search |
| Classifier.SymmetricHasNoSkewReason | histogram_classifier.py:288-291 | a histogram that reads the same backwards never triggers the skewness reason |
| FirmwareTags.TrimStart | motion_connector.py:92 | the leading whitespace removed is all whitespace, and what remains does not start with whitespace |
| FirmwareTags.TrimEnd | motion_connector.py:92 | the trailing whitespace removed is all whitespace, and what remains does not end with whitespace |
| FirmwareTags.Strip | motion_connector.py:92 | the stripped tag is a slice of the tag with only whitespace cut before and after it, neither starts nor ends with whitespace, and is empty exactly when the tag is all whitespace |
| FirmwareTags.StripIsTrimmed | motion_connector.py:92 | cutting leading and then trailing whitespace leaves a slice with only whitespace outside it and none at its ends |
| FirmwareTags.Lower | motion_connector.py:98 | lower-casing keeps the length and maps each letter A–Z to a–z |
| FirmwareTags.Rewrites | motion_connector.py:102-113 | at most one prefix rewrite applies, and it is non-empty and one character longer or shorter than the tag |
| FirmwareTags.RewriteCases | motion_connector.py:102-113 | pre-v… yields pre-…, pre-… (not pre-v) yields pre-v…, a non-pre v… of length > 1 yields it without the v, a non-pre tag starting with a digit yields v+tag, anything else yields nothing |
| FirmwareTags.RawCandidates | motion_connector.py:92-113 | an empty stripped tag gives no candidates; otherwise the tag comes first and there are at most 3 |
| FirmwareTags.KeepFirst | motion_connector.py:115-121 | the de-duplicated list holds exactly the non-empty inputs, each once |
| FirmwareTags.KeepFirstOfClean | motion_connector.py:115-121 | a list without empties or repeats passes de-duplication unchanged |
| FirmwareTags.KeepFirstKeepsOrder | motion_connector.py:115-121 | survivors appear in the order of their first occurrences |
| FirmwareTags.Dedup | motion_connector.py:116-121 | the seen-set loop computes the de-duplicated list |
| FirmwareTags.CandidateTags | motion_connector.py:90-123 | the result is empty exactly for a missing or whitespace-only tag, and never holds an empty string or a repeat |
| FirmwareTags.RawCandidatesAreClean | motion_connector.py:94-113 | the raw candidates never hold an empty string or a repeat |
| FirmwareTags.Stripped | motion_connector.py:92 | a missing tag counts as the empty tag; the result is a slice of the tag with only whitespace outside it and none at its ends, empty exactly for a missing or whitespace-only tag |
| FirmwareTags.CandidateTagsAreRaw | motion_connector.py:94-123 | de-duplication never drops a candidate |
| FirmwareTags.CandidateTagsShape | motion_connector.py:94-123 | for a non-empty stripped tag the output starts with it, has at most 3 entries, contains the lower-case form and the applicable rewrite, and nothing else |
| ConnectorState.SystemState.Code | motion_connector.py:51-55 | every state's constant is one of 0 .. 4 |
| ConnectorState.StateOfCode | motion_connector.py:51-55 | the state an integer 0 .. 4 stands for has that integer as its code |
| ConnectorState.CodeRoundTrip | motion_connector.py:51-55 | a state's code reads back as the state, and two states share a code exactly when they are equal |
| ConnectorState.UpdateState | motion_connector.py:1084-1095 | console off with a sensor off gives DISCONNECTED; console off with both sensors gives SENSOR_CONNECTED; console on with the left sensor off gives CONSOLE_CONNECTED; console and left sensor on give READY |
| ConnectorState.UpdateStateIsTotal | motion_connector.py:1086-1095 | the new state never depends on the previous one: every flag combination is decided |
| ConnectorState.NeverRunning | motion_connector.py:1092-1095 | RUNNING is never assigned |
| ConnectorState.RunningCaptureReportsReady | motion_connector.py:1092-1095 | console, both sensors and a running capture give READY, where the intended order gives RUNNING |
| ConnectorState.UpdateStateIntended | motion_connector.py:1084-1095 | with the running test first, RUNNING is reported exactly when console and left sensor are on and a capture runs |
| ConnectorState.IntendedAgreesWhenIdle | motion_connector.py:1084-1095 | with no capture running, the corrected order agrees with the written one |
| HistogramStats.CleanBins | motion_connector.py:1384-1394 | cleaning zeroes bin 1023 and every bin below 100 and keeps the others, so every bin is 0 or at least 100 |
| HistogramStats.DenoisedTotal | motion_connector.py:1390-1404 | after cleaning the total is either 0 or at least 100, so total − 1 is positive whenever it is used |
| HistogramStats.SampleVariance | motion_connector.py:1411-1414 | for non-negative counts the shortcut formula (Σ i²c − mean²·total) / (total − 1) equals Σ c·(i − mean)² / (total − 1), and is non-negative |
| HistogramStats.ShortcutIsCentral | motion_connector.py:1406-1414 | the shortcut formula over a histogram's moments equals the centred sum over total − 1, and is non-negative |
| HistogramStats.WeightedMeanStdDev | motion_connector.py:1378-1420 | a wrong length or an empty cleaned histogram gives (0.0, 0.0); the mean lies in [0, 1022]; the deviation is non-negative |
| HistogramStats.MeanStdOfCleanedBins | motion_connector.py:1399-1419 | with counts left after cleaning, the total is at least 100, the mean is the weighted mean of the cleaned bins, and the deviation is the root of their sample variance |

## Left out

- The `print` at the end of `check_non_normal`, and the `properties` dictionary of `find_peaks_simple`. They are side effects or unused outputs.
- IEEE-754 rounding. Every property is stated over exact reals.
- Classifier.Reason: the reasons are structured values, not the formatted messages such as `"High skewness (0.34)"`. Float formatting is not modelled.
- Moments.CalculateSkewness: the skewness is kept symbolic as (m3, variance). Its square root is never computed.
- Hump.DetectSecondaryHump: `max_position` is a natural number. The caller always passes `np.argmax`, so Python's negative slice indices never arise and are not modelled.
- FirmwareTags.Lower: only ASCII letters are lower-cased. Unicode case mapping is not modelled.
- FirmwareTags.IsDigit: only ASCII digits count. Other Unicode digits are not modelled.
- HistogramStats.WeightedMeanStdDev: the square root is a parameter of which only non-negativity is assumed, so the contract says nothing more about the returned deviation. The `try/except` fallback is not modelled; it only catches non-numeric data.
- HistogramStats.WeightedMeanStdDev: the source works on a copy of the caller's list. The model is pure, so the caller's data is unchanged by construction.
- The rest of `motion_connector.py` is out of scope because it is Qt, hardware, I/O or float telemetry: capture and status threads, signals and QML properties, SDK, I2C and DFU calls, firmware download, CSV and log files, thermistor maths. `main.py` and the plotting scripts are out of scope for the same reasons.

## Findings

| source | as written | input that shows it | evidently intended | confidence | as-written member | corrected member |
|---|---|---|---|---|---|---|
| motion_connector.py:1092-1095 | the READY branch tests console and left sensor before the RUNNING branch tests the same two flags plus `_running`, so RUNNING is unreachable | console, left and right sensors connected and `_running` true: the state becomes READY | RUNNING whenever console and left sensor are connected and a capture is running, READY otherwise; in this file `MOTIONConnector._running` is only ever assigned False (motion_connector.py:557), so the reachable flag combinations never expose the difference today | medium, not executed | ConnectorState.RunningCaptureReportsReady | ConnectorState.UpdateStateIntended |

=== FILE: classifier.dfy ===
/**
  `check_non_normal` and `classify_histogram`: the four shape criteria combined into a
  verdict, and the verdict plus the light/dark flag mapped to PASS, FAIL or LOW_LIGHT.
*/
module Classifier {
  import opened Wrappers
  import opened Signals
  import opened Smoothing
  import opened Peaks
  import opened Moments
  import opened Hump

  /** A peak must reach this fraction of the smoothed maximum. */
  const PeakHeightFraction: real := 0.05
  /** Reported peaks are at least this many bins apart. */
  const PeakDistance: int := 50
  /** A peak's prominence must reach this fraction of the smoothed maximum. */
  const PeakProminenceFraction: real := 0.08
  /** `skewness_threshold`. */
  const SkewnessThreshold: real := 0.2
  /** `kurtosis_threshold`, applied to the excess kurtosis. */
  const KurtosisThreshold: real := 1.0
  /** `LOW_LIGHT_MEAN_THRESHOLD`. */
  const LowLightMeanThreshold: real := 75.0

  /** One triggered criterion; the source renders each as a message string. */
  datatype Reason =
    | MultiplePeaks(count: nat)
    | HighSkewness(skewness: Skewness)
    | AbnormalKurtosis(kurtosis: Kurtosis)
    | SecondaryHumpDetected

  /** The tuple `(is_non_normal, num_peaks, peak_positions, reasons, skewness, kurtosis)`. */
  datatype Verdict = Verdict(
    isNonNormal: bool,
    numPeaks: nat,
    peakPositions: seq<nat>,
    reasons: seq<Reason>,
    skewness: Skewness,
    kurtosis: Kurtosis)

  /** `"PASS"`, `"FAIL"` and `"LOW_LIGHT"`. */
  datatype Decision = Pass | Fail | LowLight

  /** The verdict for a histogram whose smoothed maximum is zero. */
  const EmptyVerdict := Verdict(false, 0, [], [], ZeroSkew, Kurt(3.0))

  /** The invariants every verdict keeps, for a histogram of `n` bins. */
  predicate WellFormed(v: Verdict, n: nat) {
    && (v.isNonNormal <==> |v.reasons| > 0)
    && v.numPeaks == |v.peakPositions|
    && StrictlyAscending(v.peakPositions)
    && (forall p :: p in v.peakPositions ==> p < n)
  }

  /** `peak_positions.append(x); peak_positions.sort()` for an `x` not yet present. */
  function InsertSorted(ps: seq<nat>, x: nat): (r: seq<nat>)
    requires StrictlyAscending(ps) && x !in ps
    ensures StrictlyAscending(r)
    ensures |r| == |ps| + 1
    ensures forall y :: y in r <==> y in ps || y == x
  {
    if |ps| == 0 then [x]
    else if x < ps[0] then [x] + ps
    else
      var rest := InsertSorted(ps[1..], x);
      assert forall y :: y in ps <==> y == ps[0] || y in ps[1..] by {
        assert ps == [ps[0]] + ps[1..];
      }
      assert forall k :: 0 <= k < |rest| ==> ps[0] < rest[k] by {
        forall k | 0 <= k < |rest| ensures ps[0] < rest[k] {
          assert rest[k] in rest;
          if rest[k] != x {
            var j :| 0 <= j < |ps[1..]| && ps[1..][j] == rest[k];
            assert ps[j + 1] == rest[k];
          }
        }
      }
      [ps[0]] + rest
  }

  /** The peak search of `check_non_normal` on a signal whose maximum is `maxValue`. */
  function ShapePeaks(sm: seq<real>, maxValue: real): seq<nat> {
    FindPeaks(sm, Some(PeakHeightFraction * maxValue), Some(PeakDistance),
              Some(PeakProminenceFraction * maxValue))
  }

  /**
    The shape criteria as a reference definition: a non-zero smoothed maximum and two or
    more peaks, a high skewness, an abnormal kurtosis or a secondary hump.
  */
  predicate ShapeIsNonNormal(h: seq<real>)
    requires |h| > 0
  {
    var sm := Smooth(h);
    && Max(sm) != 0.0
    && (|| |ShapePeaks(sm, Max(sm))| >= 2
        || SkewExceeds(CalculateSkewness(h), SkewnessThreshold)
        || KurtosisDeviates(CalculateKurtosis(h), KurtosisThreshold)
        || SearchHump(sm, ArgMax(sm)).Some?)
  }

  /**
    The second half of `check_non_normal`: turns the detected peaks, the two moments and
    the hump search into reasons and merged peak positions.
  */
  function BuildVerdict(peaks: seq<nat>, skewness: Skewness, kurtosis: Kurtosis, hump: Option<nat>)
    : (v: Verdict)
    requires StrictlyAscending(peaks)
    ensures v.isNonNormal <==> |v.reasons| > 0
    ensures v.numPeaks == |v.peakPositions| && StrictlyAscending(v.peakPositions)
    ensures v.skewness == skewness && v.kurtosis == kurtosis
    ensures v.isNonNormal <==>
      || |peaks| >= 2
      || SkewExceeds(skewness, SkewnessThreshold)
      || KurtosisDeviates(kurtosis, KurtosisThreshold)
      || hump.Some?
    ensures MultiplePeaks(|peaks|) in v.reasons <==> |peaks| >= 2
    ensures HighSkewness(skewness) in v.reasons <==> SkewExceeds(skewness, SkewnessThreshold)
    ensures AbnormalKurtosis(kurtosis) in v.reasons <==> KurtosisDeviates(kurtosis, KurtosisThreshold)
    ensures SecondaryHumpDetected in v.reasons <==> hump.Some?
    ensures forall r :: r in v.reasons ==>
      r == MultiplePeaks(|peaks|) || r == HighSkewness(skewness) || r == AbnormalKurtosis(kurtosis)
      || r == SecondaryHumpDetected
    ensures forall p :: p in v.peakPositions <==> p in peaks || (hump.Some? && p == hump.value)
  {
    var peakReasons := if |peaks| >= 2 then [MultiplePeaks(|peaks|)] else [];
    var skewReasons := if SkewExceeds(skewness, SkewnessThreshold) then [HighSkewness(skewness)] else [];
    var kurtReasons := if KurtosisDeviates(kurtosis, KurtosisThreshold) then [AbnormalKurtosis(kurtosis)] else [];
    var humpReasons := if hump.Some? then [SecondaryHumpDetected] else [];
    var reasons := peakReasons + skewReasons + kurtReasons + humpReasons;
    assert forall x :: x in reasons <==>
      x in peakReasons || x in skewReasons || x in kurtReasons || x in humpReasons;
    var inserted := hump.Some? && hump.value !in peaks;
    var positions := if inserted then InsertSorted(peaks, hump.value) else peaks;
    var numPeaks := if inserted then |positions| else |peaks|;
    Verdict(|reasons| > 0, numPeaks, positions, reasons, skewness, kurtosis)
  }

  /** `check_non_normal(histogram)`; an empty histogram raises, as `np.max` does. */
  function CheckNonNormal(h: seq<real>): (r: Result<Verdict, SignalError>)
    ensures r.Err? <==> |h| == 0
    ensures r.Ok? ==> WellFormed(r.value, |h|)
    ensures |h| > 0 && Max(Smooth(h)) == 0.0 ==> r == Ok(EmptyVerdict)
  {
    var sm := Smooth(h);
    if |sm| == 0 then Err(EmptySignal)
    else
      var maxValue := Max(sm);
      if maxValue == 0.0 then Ok(EmptyVerdict)
      else
        var maxPos := ArgMax(sm);
        var peaks := ShapePeaks(sm, maxValue);
        match DetectSecondaryHump(h, maxPos)
        case Err(e) => Err(e)
        case Ok(hump) =>
          Ok(BuildVerdict(peaks, CalculateSkewness(h), CalculateKurtosis(h), hump))
  }

  /** `classify_histogram(histogram, is_light_histogram)`. */
  function ClassifyHistogram(h: seq<real>, isLight: bool): (r: Result<Decision, SignalError>)
    ensures !isLight ==> r != Ok(LowLight)
    ensures isLight ==> (r == Ok(LowLight) <==> Mean(h) < LowLightMeanThreshold)
    ensures !isLight || Mean(h) >= LowLightMeanThreshold ==>
      && (r.Err? <==> |h| == 0)
      && (r == Ok(Fail) <==> |h| > 0 && CheckNonNormal(h).value.isNonNormal)
    ensures r == Ok(Pass) <==>
      && |h| > 0
      && (!isLight || Mean(h) >= LowLightMeanThreshold)
      && !CheckNonNormal(h).value.isNonNormal
  {
    if !isLight then
      match CheckNonNormal(h)
      case Err(e) => Err(e)
      case Ok(v) => Ok(if v.isNonNormal then Fail else Pass)
    else if Mean(h) < LowLightMeanThreshold then Ok(LowLight)
    else
      match CheckNonNormal(h)
      case Err(e) => Err(e)
      case Ok(v) => Ok(if v.isNonNormal then Fail else Pass)
  }

  /**
    A verdict is non-normal exactly when one of the four shape criteria holds, and each
    reason is present exactly when its own criterion holds.
  */
  lemma VerdictFollowsCriteria(h: seq<real>)
    requires |h| > 0
    ensures CheckNonNormal(h).Ok?
    ensures CheckNonNormal(h).value.isNonNormal <==> ShapeIsNonNormal(h)
    ensures
      var v, sm := CheckNonNormal(h).value, Smooth(h);
      var peaks := ShapePeaks(sm, Max(sm));
      Max(sm) != 0.0 ==>
        && v.skewness == CalculateSkewness(h)
        && v.kurtosis == CalculateKurtosis(h)
        && (MultiplePeaks(|peaks|) in v.reasons <==> |peaks| >= 2)
        && (HighSkewness(v.skewness) in v.reasons <==> SkewExceeds(v.skewness, SkewnessThreshold))
        && (AbnormalKurtosis(v.kurtosis) in v.reasons <==> KurtosisDeviates(v.kurtosis, KurtosisThreshold))
        && (SecondaryHumpDetected in v.reasons <==> SearchHump(sm, ArgMax(sm)).Some?)
  {
    var sm := Smooth(h);
    if Max(sm) != 0.0 {
      var hump := SearchHump(sm, ArgMax(sm));
      assert DetectSecondaryHump(h, ArgMax(sm)) == Ok(hump);
      assert CheckNonNormal(h).value ==
        BuildVerdict(ShapePeaks(sm, Max(sm)), CalculateSkewness(h), CalculateKurtosis(h), hump);
    }
  }

  /**
    A reported secondary hump is among the peak positions, and every peak position is
    either a detected peak or that hump.
  */
  lemma HumpJoinsPeakPositions(h: seq<real>)
    requires |h| > 0 && Max(Smooth(h)) != 0.0
    ensures
      var v, sm := CheckNonNormal(h).value, Smooth(h);
      var hump := SearchHump(sm, ArgMax(sm));
      && (hump.Some? ==> hump.value in v.peakPositions)
      && (forall p :: p in v.peakPositions ==> p in ShapePeaks(sm, Max(sm)) || (hump.Some? && p == hump.value))
  {
    var sm := Smooth(h);
    var hump := SearchHump(sm, ArgMax(sm));
    assert DetectSecondaryHump(h, ArgMax(sm)) == Ok(hump);
  }

  /** Non-negative counts have a zero smoothed maximum exactly when every bin is zero. */
  lemma ZeroSmoothedMaxMeansEmpty(h: seq<real>)
    requires |h| > 0 && NonNegative(h)
    ensures Max(Smooth(h)) == 0.0 <==> forall i :: 0 <= i < |h| ==> h[i] == 0.0
  {
    SmoothKeepsSign(h);
    var sm := Smooth(h);
    if forall i :: 0 <= i < |h| ==> h[i] == 0.0 {
      SmoothZero(h);
      var k :| 0 <= k < |sm| && sm[k] == Max(sm);
    } else {
      var i :| 0 <= i < |h| && h[i] != 0.0;
      assert sm[i] > 0.0;
    }
  }

  /**
    An all-zero histogram of any positive length looks normal: the empty verdict, PASS
    when dark and LOW_LIGHT when light.
  */
  lemma AllZeroHistogram(h: seq<real>)
    requires |h| > 0 && forall i :: 0 <= i < |h| ==> h[i] == 0.0
    ensures CheckNonNormal(h) == Ok(EmptyVerdict)
    ensures ClassifyHistogram(h, false) == Ok(Pass)
    ensures ClassifyHistogram(h, true) == Ok(LowLight)
  {
    ZeroSmoothedMaxMeansEmpty(h);
    TotalOfZeros(h);
  }

  /** The bins of an all-zero histogram sum to zero, and its weighted mean is zero. */
  lemma {:induction false} TotalOfZeros(h: seq<real>)
    requires forall i :: 0 <= i < |h| ==> h[i] == 0.0
    ensures Total(h) == 0.0
    ensures Mean(h) == 0.0
  {
    if |h| > 0 {
      TotalOfZeros(h[..|h| - 1]);
    }
  }

  /** A histogram with a single occupied bin is never flagged for several peaks, skewness or kurtosis. */
  lemma SingleBinHasOnlyHumpReason(h: seq<real>, k: nat)
    requires SingleBin(h, k)
    ensures forall reason :: reason in CheckNonNormal(h).value.reasons ==>
      !reason.MultiplePeaks? && !reason.HighSkewness? && !reason.AbnormalKurtosis?
  {
    SingleBinIsDegenerate(h, k);
    var sm := Smooth(h);
    if Max(sm) != 0.0 {
      SingleBinAtMostOnePeak(h, k);
      VerdictOfSignal(h);
      OnlyHumpReason(ShapePeaks(sm, Max(sm)), ZeroSkew, Kurt(3.0), SearchHump(sm, ArgMax(sm)));
    }
  }

  /** With fewer than two peaks and moments within bounds, a secondary hump is the only possible reason. */
  lemma OnlyHumpReason(peaks: seq<nat>, skewness: Skewness, kurtosis: Kurtosis, hump: Option<nat>)
    requires StrictlyAscending(peaks) && |peaks| < 2
    requires !SkewExceeds(skewness, SkewnessThreshold) && !KurtosisDeviates(kurtosis, KurtosisThreshold)
    ensures forall reason :: reason in BuildVerdict(peaks, skewness, kurtosis, hump).reasons ==>
      reason == SecondaryHumpDetected
  {
  }

  /** With a non-zero smoothed maximum the verdict is built from the peaks, the moments and the hump search. */
  lemma VerdictOfSignal(h: seq<real>)
    requires |h| > 0 && Max(Smooth(h)) != 0.0
    ensures var sm := Smooth(h);
      CheckNonNormal(h).value
      == BuildVerdict(ShapePeaks(sm, Max(sm)), CalculateSkewness(h), CalculateKurtosis(h), SearchHump(sm, ArgMax(sm)))
  {
    var sm := Smooth(h);
    assert DetectSecondaryHump(h, ArgMax(sm)) == Ok(SearchHump(sm, ArgMax(sm)));
  }

  /** Five bins centred on `i` of a single-bin histogram hold its bin exactly when they reach `k`. */
  lemma SingleBinWindow(h: seq<real>, k: nat, i: int)
    requires SingleBin(h, k)
    ensures WindowSum(h, i) == if -2 <= i - k <= 2 then h[k] else 0.0
  {
  }

  /**
    Smoothing a single-bin histogram longer than the window gives a plateau of at least
    three equal bins around `k` and zeros elsewhere, so it has no strict local maximum.
  */
  lemma SingleBinSmoothFlat(h: seq<real>, k: nat, x: int)
    requires SingleBin(h, k) && |h| > Window
    ensures !IsLocalMax(Smooth(h), x)
  {
    if 1 <= x < |h| - 1 {
      SingleBinWindow(h, k, x - 1);
      SingleBinWindow(h, k, x);
      SingleBinWindow(h, k, x + 1);
    }
  }

  /** The only bin of the smoothed single-bin histogram that can be a local maximum is `k`. */
  lemma SingleBinLocalMax(h: seq<real>, k: nat, x: int)
    requires SingleBin(h, k)
    ensures IsLocalMax(Smooth(h), x) ==> x == k
  {
    if |h| > Window {
      SingleBinSmoothFlat(h, k, x);
    }
  }

  /** A strictly ascending list holding one value at most has at most one element. */
  lemma AscendingSingleValue(r: seq<nat>, k: nat)
    requires StrictlyAscending(r) && forall x :: x in r ==> x == k
    ensures |r| <= 1
  {
    if |r| >= 2 {
      DistinctHeads(r);
    }
  }

  /** The first two entries of a strictly ascending list are distinct members of it. */
  lemma DistinctHeads(r: seq<nat>)
    requires StrictlyAscending(r) && |r| >= 2
    ensures r[0] in r && r[1] in r && r[0] != r[1]
  {
  }

  /** The shape search finds at most one peak in a single-bin histogram. */
  lemma SingleBinAtMostOnePeak(h: seq<real>, k: nat)
    requires SingleBin(h, k)
    ensures |ShapePeaks(Smooth(h), Max(Smooth(h)))| <= 1
  {
    var sm := Smooth(h);
    var peaks := ShapePeaks(sm, Max(sm));
    forall x | x in peaks
      ensures x == k
    {
      SingleBinLocalMax(h, k, x);
    }
    AscendingSingleValue(peaks, k);
  }

  /** A histogram that reads the same backwards is never flagged for skewness. */
  lemma SymmetricHasNoSkewReason(h: seq<real>)
    requires |h| > 0 && forall i :: 0 <= i < |h| ==> h[i] == h[|h| - 1 - i]
    ensures forall reason :: reason in CheckNonNormal(h).value.reasons ==> !reason.HighSkewness?
  {
    SymmetricHasNoSkew(h, SkewnessThreshold);
    if Max(Smooth(h)) != 0.0 {
      VerdictOfSignal(h);
    }
  }
}

=== FILE: connector_state.dfy ===
/**
  `MOTIONConnector.update_state`: the system state derived from whether the console and
  the two sensors are connected and whether a capture is running.
*/
module ConnectorState {

  /** The five states of the connector; the connector stores them as the integers 0 .. 4. */
  datatype SystemState = Disconnected | SensorConnected | ConsoleConnected | Ready | Running
  {
    /** The integer constant the connector uses for the state. */
    function Code(): (c: nat)
      ensures c <= 4
    {
      match this
      case Disconnected => 0
      case SensorConnected => 1
      case ConsoleConnected => 2
      case Ready => 3
      case Running => 4
    }
  }

  /** The state an integer constant 0 .. 4 stands for. */
  function StateOfCode(c: nat): (s: SystemState)
    requires c <= 4
    ensures s.Code() == c
  {
    match c
    case 0 => Disconnected
    case 1 => SensorConnected
    case 2 => ConsoleConnected
    case 3 => Ready
    case _ => Running
  }

  /**
    Reading a state's code back gives the state, so distinct states have distinct codes
    and the codes 0 .. 4 and the states correspond one to one.
  */
  lemma CodeRoundTrip(a: SystemState, b: SystemState)
    ensures StateOfCode(a.Code()) == a
    ensures a.Code() == b.Code() <==> a == b
  {
  }

  /** The connection and run flags `update_state` reads. */
  datatype Flags = Flags(console: bool, left: bool, right: bool, running: bool)

  /**
    `update_state` as written: the first matching branch sets the state, and when no
    branch matches the previous state stays.
  */
  function UpdateState(prev: SystemState, f: Flags): (s: SystemState)
    ensures !f.console && (!f.left || !f.right) ==> s == Disconnected
    ensures !f.console && f.left && f.right ==> s == SensorConnected
    ensures f.console && !f.left ==> s == ConsoleConnected
    ensures f.console && f.left ==> s == Ready
  {
    if !f.console && (!f.left || !f.right) then Disconnected
    else if f.left && !f.console then SensorConnected
    else if f.console && !f.left then ConsoleConnected
    else if f.console && f.left then Ready
    else if f.console && f.left && f.running then Running
    else prev
  }

  /** Every flag combination is decided by one of the first four branches: the previous state never survives. */
  lemma {:induction false} UpdateStateIsTotal(prev: SystemState, other: SystemState, f: Flags)
    ensures UpdateState(prev, f) == UpdateState(other, f)
  {
    if f.console {
      assert UpdateState(prev, f) == UpdateState(other, f) == (if f.left then Ready else ConsoleConnected);
    }
  }

  /** The `RUNNING` branch is unreachable: the `READY` test before it already holds. */
  lemma NeverRunning(prev: SystemState, f: Flags)
    ensures UpdateState(prev, f) != Running
  {
  }

  /** A witness: console, both sensors and a running capture still yield `READY`. */
  lemma RunningCaptureReportsReady(prev: SystemState)
    ensures UpdateState(prev, Flags(true, true, true, true)) == Ready
    ensures UpdateStateIntended(Flags(true, true, true, true)) == Running
  {
  }

  /** The evidently intended order: a running capture is tested before `READY`. */
  function UpdateStateIntended(f: Flags): (s: SystemState)
    ensures s == Running <==> f.console && f.left && f.running
    ensures s == Ready <==> f.console && f.left && !f.running
  {
    if !f.console && (!f.left || !f.right) then Disconnected
    else if f.left && !f.console then SensorConnected
    else if f.console && !f.left then ConsoleConnected
    else if f.console && f.left && f.running then Running
    else Ready
  }

  /** The corrected order agrees with the written one whenever no capture is running. */
  lemma {:induction false} IntendedAgreesWhenIdle(prev: SystemState, f: Flags)
    requires !f.running
    ensures UpdateStateIntended(f) == UpdateState(prev, f)
  {
    if f.console && f.left {
      assert UpdateState(prev, f) == Ready;
    }
  }
}

=== FILE: firmware_tags.dfy ===
/**
  `_candidate_console_fw_tags`: turns a user-supplied console firmware tag into the
  release tags worth looking up, in order — the tag itself, its lower-case form, and one
  prefix rewrite (`pre-v` ↔ `pre-`, or adding/removing a leading `v`) — without
  duplicates or empty strings.
*/
module FirmwareTags {
  import opened Wrappers

  /** Python's `str.isspace` code points (the characters `str.strip()` removes). */
  predicate IsSpace(c: char) {
    var n := c as int;
    || 0x09 <= n <= 0x0D
    || 0x1C <= n <= 0x20
    || n == 0x85 || n == 0xA0 || n == 0x1680
    || 0x2000 <= n <= 0x200A
    || n == 0x2028 || n == 0x2029 || n == 0x202F || n == 0x205F || n == 0x3000
  }

  /** Drops leading whitespace; the result is a suffix of `s`. */
  function TrimStart(s: string): (r: string)
    ensures |r| <= |s| && r == s[|s| - |r|..]
    ensures forall k :: 0 <= k < |s| - |r| ==> IsSpace(s[k])
    ensures |r| > 0 ==> !IsSpace(r[0])
  {
    if |s| > 0 && IsSpace(s[0]) then TrimStart(s[1..]) else s
  }

  /** Drops trailing whitespace; the result is a prefix of `s`. */
  function TrimEnd(s: string): (r: string)
    ensures |r| <= |s| && r == s[..|r|]
    ensures forall k :: |r| <= k < |s| ==> IsSpace(s[k])
    ensures |r| > 0 ==> !IsSpace(r[|r| - 1])
  {
    if |s| > 0 && IsSpace(s[|s| - 1]) then TrimEnd(s[..|s| - 1]) else s
  }

  /** `r` is `s` with a whitespace prefix and a whitespace suffix cut off. */
  predicate Trimmed(s: string, r: string) {
    exists a, b ::
      && 0 <= a <= b <= |s| && r == s[a..b]
      && (forall k :: 0 <= k < a ==> IsSpace(s[k]))
      && (forall k :: b <= k < |s| ==> IsSpace(s[k]))
  }

  /** `str.strip()`: the contiguous middle of `s` between its leading and trailing whitespace. */
  function Strip(s: string): (r: string)
    ensures Trimmed(s, r)
    ensures |r| > 0 ==> !IsSpace(r[0]) && !IsSpace(r[|r| - 1])
    ensures r == [] <==> forall k :: 0 <= k < |s| ==> IsSpace(s[k])
  {
    var front := TrimStart(s);
    var r := TrimEnd(front);
    StripIsTrimmed(s, front, r);
    r
  }

  /**
    Trimming the front and then the end cuts a whitespace prefix and suffix from `s`,
    leaves no whitespace at either end, and leaves nothing exactly when `s` is all
    whitespace.
  */
  lemma StripIsTrimmed(s: string, front: string, r: string)
    requires |front| <= |s| && front == s[|s| - |front|..]
    requires forall k :: 0 <= k < |s| - |front| ==> IsSpace(s[k])
    requires |front| > 0 ==> !IsSpace(front[0])
    requires |r| <= |front| && r == front[..|r|]
    requires forall k :: |r| <= k < |front| ==> IsSpace(front[k])
    requires |r| > 0 ==> !IsSpace(r[|r| - 1])
    ensures Trimmed(s, r)
    ensures |r| > 0 ==> !IsSpace(r[0]) && !IsSpace(r[|r| - 1])
    ensures r == [] <==> forall k :: 0 <= k < |s| ==> IsSpace(s[k])
  {
    var a := |s| - |front|;
    var b := a + |r|;
    assert r == s[a..b];
    forall k | b <= k < |s|
      ensures IsSpace(s[k])
    {
      assert s[k] == front[k - a];
    }
    if r != [] {
      assert r[0] == front[0] == s[a];
    }
  }

  /** `str.lower()` on one character, for the ASCII letters. */
  function LowerChar(c: char): (r: char)
    ensures 'A' <= c <= 'Z' ==> 'a' <= r <= 'z' && r as int - c as int == 32
    ensures !('A' <= c <= 'Z') ==> r == c
  {
    if 'A' <= c <= 'Z' then (c as int + 32) as char else c
  }

  /** `str.lower()`, character by character. */
  function Lower(s: string): (r: string)
    ensures |r| == |s|
    ensures forall k :: 0 <= k < |s| ==> r[k] == LowerChar(s[k])
  {
    seq(|s|, k requires 0 <= k < |s| => LowerChar(s[k]))
  }

  /** `str.isdigit()` for one character, restricted to the ASCII digits. */
  predicate IsDigit(c: char) {
    '0' <= c <= '9'
  }

  /** `str.startswith(prefix)`. */
  predicate StartsWith(s: string, prefix: string) {
    |prefix| <= |s| && s[..|prefix|] == prefix
  }

  /** The prefix rewrites of the lower-cased tag (at most one of them applies). */
  function Rewrites(low: string): (r: seq<string>)
    ensures |r| <= 1
    ensures forall x :: x in r ==> x != [] && (|x| == |low| + 1 || |x| + 1 == |low|)
  {
    var preDropV := if StartsWith(low, "pre-v") then ["pre-" + low[5..]] else [];
    var preAddV := if StartsWith(low, "pre-") && !StartsWith(low, "pre-v")
      then ["pre-v" + low[4..]] else [];
    var plain :=
      if !StartsWith(low, "pre-") then
        if StartsWith(low, "v") && |low| > 1 then [low[1..]]
        else if |low| > 0 && IsDigit(low[0]) then ["v" + low]
        else []
      else [];
    assert StartsWith(low, "pre-v") ==> StartsWith(low, "pre-") by {
      if StartsWith(low, "pre-v") {
        assert low[..4] == low[..5][..4];
      }
    }
    preDropV + preAddV + plain
  }

  /** The `candidates` list before de-duplication, for an already stripped tag `t`. */
  function RawCandidates(t: string): (r: seq<string>)
    ensures t == [] ==> r == []
    ensures t != [] ==> 1 <= |r| <= 3 && r[0] == t
  {
    if t == [] then []
    else
      var low := Lower(t);
      [t] + (if low != t then [low] else []) + Rewrites(low)
  }

  /**
    The de-duplication loop written as a function over prefixes: an element is kept when
    it is non-empty and not among the elements kept before it.
  */
  function KeepFirst(xs: seq<string>): (r: seq<string>)
    ensures forall x :: x in r <==> x in xs && x != []
    ensures Clean(r)
    ensures |r| <= |xs|
  {
    if |xs| == 0 then []
    else
      var p := KeepFirst(xs[..|xs| - 1]);
      var x := xs[|xs| - 1];
      assert forall y :: y in xs <==> y in xs[..|xs| - 1] || y == x;
      if x != [] && x !in p then p + [x] else p
  }

  /** No empty string and no string twice. */
  predicate Clean(xs: seq<string>) {
    && (forall i :: 0 <= i < |xs| ==> xs[i] != [])
    && (forall i, j :: 0 <= i < j < |xs| ==> xs[i] != xs[j])
  }

  /** A list already free of duplicates and empty strings passes through unchanged. */
  lemma {:induction false} KeepFirstOfClean(xs: seq<string>)
    requires Clean(xs)
    ensures KeepFirst(xs) == xs
  {
    if |xs| > 0 {
      var init := xs[..|xs| - 1];
      KeepFirstOfClean(init);
      assert xs[|xs| - 1] !in init;
      assert init + [xs[|xs| - 1]] == xs;
    }
  }

  /** The position of the first occurrence of `x` in `xs`. */
  function FirstIndex(xs: seq<string>, x: string): (k: nat)
    requires x in xs
    ensures k < |xs| && xs[k] == x
    ensures forall j :: 0 <= j < k ==> xs[j] != x
  {
    if xs[0] == x then 0 else 1 + FirstIndex(xs[1..], x)
  }

  /** `FirstIndex` is unchanged by appending elements after the first occurrence. */
  lemma FirstIndexPrefix(xs: seq<string>, n: nat, x: string)
    requires n <= |xs| && x in xs[..n]
    ensures x in xs && FirstIndex(xs, x) == FirstIndex(xs[..n], x)
  {
    var k := FirstIndex(xs[..n], x);
    assert xs[k] == x;
    var m := FirstIndex(xs, x);
    assert m <= k;
  }

  /** The survivors appear in the order of their first occurrences in the input. */
  lemma {:induction false} KeepFirstKeepsOrder(xs: seq<string>)
    ensures forall i, j :: 0 <= i < j < |KeepFirst(xs)| ==>
      FirstIndex(xs, KeepFirst(xs)[i]) < FirstIndex(xs, KeepFirst(xs)[j])
  {
    if |xs| > 0 {
      var n := |xs| - 1;
      var init := xs[..n];
      var p := KeepFirst(init);
      var x := xs[n];
      KeepFirstKeepsOrder(init);
      var r := KeepFirst(xs);
      forall i, j | 0 <= i < j < |r|
        ensures FirstIndex(xs, r[i]) < FirstIndex(xs, r[j])
      {
        assert r[i] == p[i] && r[i] in p;
        assert r[i] in init;
        FirstIndexPrefix(xs, n, r[i]);
        if j < |p| {
          assert r[j] == p[j] && r[j] in p;
          assert r[j] in init;
          FirstIndexPrefix(xs, n, r[j]);
          assert FirstIndex(init, p[i]) < FirstIndex(init, p[j]);
        } else {
          assert r[j] == x && x !in p && x !in init;
          assert FirstIndex(xs, x) == n;
        }
      }
    }
  }

  /** The `seen`-set loop of `_candidate_console_fw_tags`. */
  method Dedup(candidates: seq<string>) returns (ordered: seq<string>)
    ensures ordered == KeepFirst(candidates)
  {
    var seen: set<string> := {};
    ordered := [];
    var i := 0;
    while i < |candidates|
      invariant 0 <= i <= |candidates|
      invariant ordered == KeepFirst(candidates[..i])
      invariant seen == set y | y in ordered
    {
      var x := candidates[i];
      assert candidates[..i + 1][..i] == candidates[..i];
      if x != [] && x !in seen {
        seen := seen + {x};
        ordered := ordered + [x];
      }
      i := i + 1;
    }
    assert candidates[..i] == candidates;
  }

  /** `_candidate_console_fw_tags(tag)`; `None` behaves as the empty tag (`tag or ""`). */
  function CandidateTags(tag: Option<string>): (r: seq<string>)
    ensures r == [] <==> tag.None? || forall k :: 0 <= k < |tag.value| ==> IsSpace(tag.value[k])
    ensures Clean(r)
  {
    var raw := RawCandidates(Stripped(tag));
    assert raw != [] ==> raw[0] in raw;
    KeepFirst(raw)
  }

  /** No candidate is ever empty or repeated, so the de-duplication pass never drops one. */
  lemma RawCandidatesAreClean(t: string)
    ensures Clean(RawCandidates(t))
  {
    if t != [] {
      var low := Lower(t);
      var head := [t] + (if low != t then [low] else []);
      assert RawCandidates(t) == head + Rewrites(low);
      assert forall x :: x in head ==> |x| == |t| && x != [];
      DistinctLengthsJoin(head, Rewrites(low), |t|);
    }
  }

  /** A clean list of strings of length `n` followed by one string of another length stays clean. */
  lemma DistinctLengthsJoin(head: seq<string>, tail: seq<string>, n: nat)
    requires Clean(head) && |tail| <= 1
    requires forall x :: x in head ==> |x| == n
    requires forall x :: x in tail ==> x != [] && |x| != n
    ensures Clean(head + tail)
  {
    var xs := head + tail;
    forall i | 0 <= i < |xs|
      ensures xs[i] != []
    {
      if i < |head| { assert xs[i] == head[i]; } else { assert xs[i] in tail; }
    }
    forall i, j | 0 <= i < j < |xs|
      ensures xs[i] != xs[j]
    {
      if j < |head| {
        assert xs[i] == head[i] && xs[j] == head[j];
      } else {
        assert xs[i] == head[i] && xs[i] in head;
        assert xs[j] in tail;
      }
    }
  }

  /** Which single rewrite applies to a lower-cased tag, if any. */
  lemma RewriteCases(low: string)
    ensures StartsWith(low, "pre-v") ==> Rewrites(low) == ["pre-" + low[5..]]
    ensures StartsWith(low, "pre-") && !StartsWith(low, "pre-v") ==> Rewrites(low) == ["pre-v" + low[4..]]
    ensures !StartsWith(low, "pre-") && StartsWith(low, "v") && |low| > 1 ==> Rewrites(low) == [low[1..]]
    ensures !StartsWith(low, "pre-") && !(StartsWith(low, "v") && |low| > 1) && |low| > 0 && IsDigit(low[0]) ==>
      Rewrites(low) == ["v" + low]
    ensures !StartsWith(low, "pre-") && !(StartsWith(low, "v") && |low| > 1) && !(|low| > 0 && IsDigit(low[0])) ==>
      Rewrites(low) == []
  {
    assert StartsWith(low, "pre-v") ==> StartsWith(low, "pre-") by {
      if StartsWith(low, "pre-v") {
        assert low[..4] == low[..5][..4];
      }
    }
  }

  /** The stripped tag (`(tag or "").strip()`). */
  function Stripped(tag: Option<string>): (t: string)
    ensures Trimmed(if tag.Some? then tag.value else "", t)
    ensures |t| > 0 ==> !IsSpace(t[0]) && !IsSpace(t[|t| - 1])
    ensures t == [] <==> tag.None? || forall k :: 0 <= k < |tag.value| ==> IsSpace(tag.value[k])
  {
    Strip(if tag.Some? then tag.value else "")
  }

  /** The de-duplication pass never drops a candidate. */
  lemma CandidateTagsAreRaw(tag: Option<string>)
    ensures CandidateTags(tag) == RawCandidates(Stripped(tag))
  {
    RawCandidatesAreClean(Stripped(tag));
    KeepFirstOfClean(RawCandidates(Stripped(tag)));
  }

  /**
    The output in full: the stripped tag first, then its lower-case form when different,
    then the one applicable prefix rewrite of the lower-case form.
  */
  lemma CandidateTagsShape(tag: Option<string>)
    ensures var t, r := Stripped(tag), CandidateTags(tag);
      t != [] ==>
        && |r| <= 3 && r[0] == t
        && Lower(t) in r
        && (forall x :: x in Rewrites(Lower(t)) ==> x in r)
        && forall x :: x in r ==> x == t || x == Lower(t) || x in Rewrites(Lower(t))
  {
    CandidateTagsAreRaw(tag);
    if Stripped(tag) != [] {
      RawCandidatesShape(Stripped(tag));
    }
  }

  /** The shape of the raw list for a non-empty stripped tag `t`. */
  lemma RawCandidatesShape(t: string)
    requires t != []
    ensures var r := RawCandidates(t);
      && |r| <= 3 && r[0] == t
      && Lower(t) in r
      && (forall x :: x in Rewrites(Lower(t)) ==> x in r)
      && forall x :: x in r ==> x == t || x == Lower(t) || x in Rewrites(Lower(t))
  {
  }
}

=== FILE: histogram_stats.dfy ===
/**
  `MOTIONConnector._calculate_weighted_mean_std_dev`: the mean bin and the sample standard
  deviation of one 1024-bin camera histogram, after zeroing the overflow bin and the
  noisy bins.
*/
module HistogramStats {
  import opened Smoothing
  import opened Moments

  /** Histograms of any other length are rejected with (0.0, 0.0). */
  const HistogramLength: nat := 1024
  /** The last bin collects overflow and is always zeroed. */
  const OverflowBin: nat := 1023
  /** Bins holding fewer counts than this are treated as noise and zeroed (`noisyBinMin`). */
  const NoisyBinMin: real := 100.0

  /** The pair the connector returns: the mean bin and the standard deviation. */
  datatype MeanStd = MeanStd(mean: real, std: real)

  /** Every bin is either zeroed or holds at least `NoisyBinMin` counts. */
  predicate Denoised(c: seq<real>) {
    forall i :: 0 <= i < |c| ==> c[i] == 0.0 || c[i] >= NoisyBinMin
  }

  /** The cleaned copy: the overflow bin and every bin below `NoisyBinMin` set to 0. */
  function CleanBins(h: seq<real>): (c: seq<real>)
    ensures |c| == |h| && Denoised(c) && NonNegative(c)
    ensures OverflowBin < |c| ==> c[OverflowBin] == 0.0
    ensures forall i :: 0 <= i < |h| && i != OverflowBin && h[i] >= NoisyBinMin ==> c[i] == h[i]
    ensures forall i :: 0 <= i < |h| && h[i] < NoisyBinMin ==> c[i] == 0.0
  {
    seq(|h|, i requires 0 <= i < |h| => if i == OverflowBin || h[i] < NoisyBinMin then 0.0 else h[i])
  }

  /** A denoised histogram totals either 0 or at least `NoisyBinMin`. */
  lemma {:induction false} DenoisedTotal(c: seq<real>)
    requires Denoised(c)
    ensures Total(c) == 0.0 || Total(c) >= NoisyBinMin
  {
    if |c| > 0 {
      DenoisedTotal(c[..|c| - 1]);
      assert c[|c| - 1] == 0.0 || c[|c| - 1] >= NoisyBinMin;
    }
  }

  /** The shortcut formula (s2 − mean²·total) / (total − 1) over plain numbers. */
  function Shortcut(s2: real, mean: real, total: real): real
    requires total != 1.0
  {
    (s2 - mean * mean * total) / (total - 1.0)
  }

  /** With s1 = mean·total the shortcut equals (s2 − 2·mean·s1 + mean²·total) / (total − 1). */
  lemma ShortcutExpands(s2: real, s1: real, m: real, total: real)
    requires total != 1.0 && s1 == m * total
    ensures Shortcut(s2, m, total) == (s2 - 2.0 * m * s1 + m * m * total) / (total - 1.0)
  {
    var centred := s2 - 2.0 * m * s1 + m * m * total;
    CentredNumerator(s2, s1, m, total);
    assert Shortcut(s2, m, total) == (s2 - m * m * total) / (total - 1.0);
    SameQuotient(s2 - m * m * total, centred, total - 1.0);
  }

  /** Equal numerators over the same divisor give equal quotients. */
  lemma SameQuotient(x: real, y: real, d: real)
    requires d != 0.0 && x == y
    ensures x / d == y / d
  {}

  /** s2 − 2m·s1 + m²·t = s2 − m²·t when s1 = m·t. */
  lemma CentredNumerator(s2: real, s1: real, m: real, t: real)
    requires s1 == m * t
    ensures s2 - 2.0 * m * s1 + m * m * t == s2 - m * m * t
  {}

  /**
    The sample variance as the connector computes it,
    (Σ i²·c[i] − mean²·Σ c[i]) / (Σ c[i] − 1): for non-negative counts it is the centred
    sum Σ c[i]·(i − mean)² over Σ c[i] − 1, and so never negative.
  */
  function SampleVariance(c: seq<real>): (r: real)
    requires Total(c) > 1.0
    ensures NonNegative(c) ==> r == CentralSum(c, Mean(c), 2) / (Total(c) - 1.0)
    ensures NonNegative(c) ==> r >= 0.0
  {
    if NonNegative(c) then
      ShortcutIsCentral(c);
      Shortcut(SecondMoment(c), Mean(c), Total(c))
    else
      Shortcut(SecondMoment(c), Mean(c), Total(c))
  }

  /**
    The shortcut formula over a histogram's moments equals the centred sum over
    Σ c[i] − 1, which is non-negative for non-negative counts.
  */
  lemma ShortcutIsCentral(c: seq<real>)
    requires NonNegative(c) && Total(c) > 1.0
    ensures Shortcut(SecondMoment(c), Mean(c), Total(c)) == CentralSum(c, Mean(c), 2) / (Total(c) - 1.0)
    ensures Shortcut(SecondMoment(c), Mean(c), Total(c)) >= 0.0
  {
    var m := Mean(c);
    CentralSumExpansion(c, m);
    EvenCentralSumNonNegative(c, m, 2);
    VarianceAlgebra(SecondMoment(c), FirstMoment(c), CentralSum(c, m, 2), m, Total(c));
  }

  /**
    The algebra behind `ShortcutIsCentral`, over plain numbers: with s1 = m·t and
    c2 = s2 − 2m·s1 + m²·t ≥ 0, the shortcut is c2 / (t − 1) and non-negative.
  */
  lemma VarianceAlgebra(s2: real, s1: real, c2: real, m: real, t: real)
    requires t > 1.0 && s1 == Times(m, t) && c2 >= 0.0
    requires c2 == s2 - 2.0 * Times(m, s1) + Times(Times(m, m), t)
    ensures Shortcut(s2, m, t) == c2 / (t - 1.0)
    ensures Shortcut(s2, m, t) >= 0.0
  {
    ShortcutExpands(s2, s1, m, t);
    NonNegativeQuotient(c2, t - 1.0);
  }

  /**
    `_calculate_weighted_mean_std_dev(histogram_data)`; `sqrt` stands for the square root,
    of which only non-negativity is assumed.
  */
  function WeightedMeanStdDev(h: seq<real>, sqrt: real -> real): (r: MeanStd)
    requires forall x :: x >= 0.0 ==> sqrt(x) >= 0.0
    ensures |h| != HistogramLength || Total(CleanBins(h)) == 0.0 ==> r == MeanStd(0.0, 0.0)
    ensures 0.0 <= r.mean <= OverflowBin as real - 1.0
    ensures r.std >= 0.0
  {
    if |h| != HistogramLength then MeanStd(0.0, 0.0)
    else
      var c := CleanBins(h);
      var total := Total(c);
      if total == 0.0 then MeanStd(0.0, 0.0)
      else
        DenoisedTotal(c);
        MeanWithinOccupiedBins(c, OverflowBin - 1);
        var variance := SampleVariance(c);
        MeanStd(FirstMoment(c) / total, if variance >= 0.0 then sqrt(variance) else 0.0)
  }

  /**
    For a full-length histogram with counts left after cleaning, the mean is the weighted
    mean of the cleaned bins and the deviation is the root of their sample variance (the
    zero fallback for a negative variance never applies).
  */
  lemma MeanStdOfCleanedBins(h: seq<real>, sqrt: real -> real)
    requires forall x :: x >= 0.0 ==> sqrt(x) >= 0.0
    requires |h| == HistogramLength && Total(CleanBins(h)) != 0.0
    ensures var c := CleanBins(h);
      && Total(c) >= NoisyBinMin
      && WeightedMeanStdDev(h, sqrt).mean == Mean(c)
      && WeightedMeanStdDev(h, sqrt).std == sqrt(CentralSum(c, Mean(c), 2) / (Total(c) - 1.0))
  {
    DenoisedTotal(CleanBins(h));
  }
}

=== FILE: hump.dfy ===
/**
  `detect_secondary_hump`: looks for a broad elevated region on the far half of either
  side of the main peak, the left side first.
*/
module Hump {
  import opened Wrappers
  import opened Signals
  import opened Smoothing
  import Moments

  /** A hump must reach this fraction of the smoothed maximum. */
  const ElevationFraction: real := 0.15
  /** The window around a hump must average this fraction of the elevation threshold. */
  const RegionFraction: real := 0.7
  /** A side is searched only when it is longer than this. */
  const MinSideLength: nat := 50
  /** Radius of the averaging window around a candidate hump. */
  const HalfWidth: nat := 20

  /** `min(a, n)`: the effect of slicing at `a` a sequence of length `n`. */
  function Clip(a: nat, n: nat): (c: nat)
    ensures c <= n && c <= a && (c == a || c == n)
  {
    if a < n then a else n
  }

  /** `smoothed[:max_position]`: the bins before the main peak. */
  function LeftSide(sm: seq<real>, maxPos: nat): (r: seq<real>)
    ensures |r| == if maxPos < |sm| then maxPos else |sm|
    ensures forall j :: 0 <= j < |r| ==> r[j] == sm[j]
  {
    sm[..Clip(maxPos, |sm|)]
  }

  /** `smoothed[max_position+1:]`: the bins after the main peak. */
  function RightSide(sm: seq<real>, maxPos: nat): (r: seq<real>)
    ensures |r| == if maxPos + 1 < |sm| then |sm| - (maxPos + 1) else 0
    ensures forall j :: 0 <= j < |r| ==> r[j] == sm[maxPos + 1 + j]
  {
    sm[Clip(maxPos + 1, |sm|)..]
  }

  /** The half of the left side farther from the main peak: its first half. */
  function LeftFarHalf(sm: seq<real>, maxPos: nat): seq<real> {
    var left := LeftSide(sm, maxPos);
    left[..|left| / 2]
  }

  /** The half of the right side farther from the main peak: its second half. */
  function RightFarHalf(sm: seq<real>, maxPos: nat): seq<real> {
    var right := RightSide(sm, maxPos);
    right[|right| / 2..]
  }

  /** The first bin of the averaging window around `i`. */
  function WindowStart(i: nat): nat {
    if i >= HalfWidth then i - HalfWidth else 0
  }

  /** One past the last bin of the averaging window around `i`, in a half of `n` bins. */
  function WindowEnd(n: nat, i: nat): nat {
    if i + HalfWidth < n then i + HalfWidth else n
  }

  /**
    The mean of `half[max(0, i−20) : min(|half|, i+20)]`, a window that always contains
    `i`: its sum over its length, which lies between the smallest and the largest bin of the window.
  */
  function RegionAverage(half: seq<real>, i: nat): (r: real)
    requires i < |half|
    ensures WindowStart(i) <= i < WindowEnd(|half|, i) <= |half|
    ensures var w := half[WindowStart(i)..WindowEnd(|half|, i)];
      Min(w) <= r <= Max(w)
    ensures Min(half) <= r <= Max(half)
    ensures var w := half[WindowStart(i)..WindowEnd(|half|, i)];
      Moments.Times(r, |w| as real) == Moments.Total(w)
  {
    var lo, hi := WindowStart(i), WindowEnd(|half|, i);
    WindowWithinHalf(half, lo, hi);
    Average(half[lo..hi])
  }

  /** `np.mean(w)`: the sum over the length, which lies between the smallest and the largest bin. */
  function Average(w: seq<real>): (r: real)
    requires |w| > 0
    ensures Min(w) <= r <= Max(w)
    ensures Moments.Times(r, |w| as real) == Moments.Total(w)
  {
    AverageBetween(w, |w| as real);
    AverageTimesCount(Moments.Total(w), |w| as real);
    Moments.Total(w) / |w| as real
  }

  /** An average times the count it was taken over gives back the sum. */
  lemma AverageTimesCount(t: real, n: real)
    requires n != 0.0
    ensures Moments.Times(t / n, n) == t
  {
  }

  /** A window's extremes lie within those of the whole half. */
  lemma WindowWithinHalf(half: seq<real>, lo: nat, hi: nat)
    requires lo < hi <= |half|
    ensures Min(half) <= Min(half[lo..hi]) && Max(half[lo..hi]) <= Max(half)
  {
    var w := half[lo..hi];
    var a :| 0 <= a < |w| && w[a] == Min(w);
    var b :| 0 <= b < |w| && w[b] == Max(w);
    assert w[a] == half[lo + a] && w[b] == half[lo + b];
  }

  /** The mean of a non-empty window lies between its smallest and largest bin. */
  lemma AverageBetween(w: seq<real>, n: real)
    requires |w| > 0 && n == |w| as real
    ensures Min(w) <= Moments.Total(w) / n <= Max(w)
  {
    TotalBounds(w, Min(w), Max(w));
    AverageStep(n, Moments.Total(w), Min(w), Max(w));
  }

  /** Bins between lo and hi sum to between |w|·lo and |w|·hi. */
  lemma {:induction false} TotalBounds(w: seq<real>, lo: real, hi: real)
    requires forall j :: 0 <= j < |w| ==> lo <= w[j] <= hi
    ensures Moments.Times(|w| as real, lo) <= Moments.Total(w) <= Moments.Times(|w| as real, hi)
  {
    if |w| > 0 {
      var prefix := w[..|w| - 1];
      TotalBounds(prefix, lo, hi);
      CountStep(|prefix| as real, |w| as real, Moments.Total(prefix), w[|w| - 1], lo, hi);
    }
  }

  /** Adding one bin x between lo and hi to a sum of n such bins. */
  lemma CountStep(n: real, n1: real, t: real, x: real, lo: real, hi: real)
    requires n1 == n + 1.0
    requires Moments.Times(n, lo) <= t <= Moments.Times(n, hi) && lo <= x <= hi
    ensures Moments.Times(n1, lo) <= t + x <= Moments.Times(n1, hi)
  {
  }

  /** n·lo ≤ t ≤ n·hi with n > 0 puts t / n between lo and hi. */
  lemma AverageStep(n: real, t: real, lo: real, hi: real)
    requires n > 0.0 && Moments.Times(n, lo) <= t <= Moments.Times(n, hi)
    ensures lo <= t / n <= hi
  {
    assert (t / n) * n == t;
  }

  /**
    The search inside one far half: its first maximum, when that reaches the threshold
    and the window around it averages at least 0.7 of the threshold.
  */
  function HumpIn(half: seq<real>, threshold: real): (r: Option<nat>)
    ensures r.Some? <==>
      |half| > 0 && Max(half) >= threshold && RegionAverage(half, ArgMax(half)) >= threshold * RegionFraction
    ensures r.Some? ==> r.value < |half| && half[r.value] >= threshold
    ensures r.Some? ==> forall j :: 0 <= j < |half| ==> half[j] <= half[r.value]
    ensures r.Some? ==> forall j :: 0 <= j < r.value ==> half[j] < half[r.value]
  {
    if |half| > 0 then
      var i := ArgMax(half);
      ArgMaxIsMax(half);
      if half[i] >= threshold && RegionAverage(half, i) >= threshold * RegionFraction then Some(i) else None
    else None
  }

  /** A hump on the left side: positions in the far half are already absolute. */
  function LeftHump(sm: seq<real>, maxPos: nat, threshold: real): (r: Option<nat>)
    ensures r.Some? <==>
      |LeftSide(sm, maxPos)| > MinSideLength && HumpIn(LeftFarHalf(sm, maxPos), threshold).Some?
    ensures r.Some? ==> r == HumpIn(LeftFarHalf(sm, maxPos), threshold)
    ensures r.Some? ==>
      var left := LeftSide(sm, maxPos);
      && |left| > MinSideLength && r.value < |left| / 2 && r.value < |sm|
      && sm[r.value] >= threshold
      && (forall j :: 0 <= j < |left| / 2 ==> sm[j] <= sm[r.value])
      && RegionAverage(LeftFarHalf(sm, maxPos), r.value) >= threshold * RegionFraction
  {
    var left := LeftSide(sm, maxPos);
    if |left| > MinSideLength then
      var half := LeftFarHalf(sm, maxPos);
      var found := HumpIn(half, threshold);
      if found.Some? then
        assert forall j :: 0 <= j < |half| ==> half[j] == sm[j];
        found
      else None
    else None
  }

  /** A hump on the right side, converted back to a position in the whole signal. */
  function RightHump(sm: seq<real>, maxPos: nat, threshold: real): (r: Option<nat>)
    ensures r.Some? <==>
      |RightSide(sm, maxPos)| > MinSideLength && HumpIn(RightFarHalf(sm, maxPos), threshold).Some?
    ensures r.Some? ==>
      r.value == maxPos + 1 + |RightSide(sm, maxPos)| / 2 + HumpIn(RightFarHalf(sm, maxPos), threshold).value
    ensures r.Some? ==>
      var right := RightSide(sm, maxPos);
      && |right| > MinSideLength && maxPos + 1 + |right| / 2 <= r.value < |sm|
      && sm[r.value] >= threshold
      && (forall j :: maxPos + 1 + |right| / 2 <= j < |sm| ==> sm[j] <= sm[r.value])
      && RegionAverage(RightFarHalf(sm, maxPos), r.value - (maxPos + 1 + |right| / 2))
         >= threshold * RegionFraction
  {
    var right := RightSide(sm, maxPos);
    if |right| > MinSideLength then
      var half := RightFarHalf(sm, maxPos);
      var found := HumpIn(half, threshold);
      if found.Some? then
        RightFarHalfIsTail(sm, maxPos);
        Some(maxPos + 1 + |right| / 2 + found.value)
      else None
    else None
  }

  /** The right far half is the tail of the signal from max_position+1+len(right)//2 on. */
  lemma RightFarHalfIsTail(sm: seq<real>, maxPos: nat)
    requires |RightSide(sm, maxPos)| > 0
    ensures var start, half := maxPos + 1 + |RightSide(sm, maxPos)| / 2, RightFarHalf(sm, maxPos);
      && start + |half| == |sm|
      && forall j :: start <= j < |sm| ==> half[j - start] == sm[j]
  {
  }

  /**
    Both sides for a given elevation threshold: the left side's hump if it has one,
    else the right side's.
  */
  function SideHump(sm: seq<real>, maxPos: nat, threshold: real): (r: Option<nat>)
    ensures r.Some? <==> LeftHump(sm, maxPos, threshold).Some? || RightHump(sm, maxPos, threshold).Some?
    ensures LeftHump(sm, maxPos, threshold).Some? ==> r == LeftHump(sm, maxPos, threshold)
    ensures LeftHump(sm, maxPos, threshold).None? ==> r == RightHump(sm, maxPos, threshold)
    ensures |LeftSide(sm, maxPos)| <= MinSideLength && |RightSide(sm, maxPos)| <= MinSideLength ==> r == None
    ensures r.Some? ==>
      var p := r.value;
      var left, right := LeftSide(sm, maxPos), RightSide(sm, maxPos);
      && p < |sm|
      && sm[p] >= threshold
      && ((|left| > MinSideLength && p < |left| / 2)
          || (|right| > MinSideLength && maxPos + 1 + |right| / 2 <= p))
    ensures r.Some? && r.value >= maxPos ==> LeftHump(sm, maxPos, threshold) == None
  {
    var leftHump := LeftHump(sm, maxPos, threshold);
    if leftHump.Some? then leftHump else RightHump(sm, maxPos, threshold)
  }

  /** The elevation threshold: 15% of the smoothed maximum. */
  function Threshold(sm: seq<real>): real
    requires |sm| > 0
  {
    ElevationFraction * Max(sm)
  }

  /** The search on a non-empty smoothed signal: nothing when its maximum is zero. */
  function SearchHump(sm: seq<real>, maxPos: nat): (r: Option<nat>)
    requires |sm| > 0
    ensures r.Some? <==> Max(sm) != 0.0 && SideHump(sm, maxPos, Threshold(sm)).Some?
    ensures Max(sm) == 0.0 ==> r == None
    ensures Max(sm) != 0.0 ==> r == SideHump(sm, maxPos, Threshold(sm))
    ensures r.Some? ==> r.value < |sm| && sm[r.value] >= Threshold(sm)
  {
    if Max(sm) == 0.0 then None else SideHump(sm, maxPos, Threshold(sm))
  }

  /**
    `detect_secondary_hump(histogram, max_position)`: `Ok(None)` is `(False, None)`,
    `Ok(Some(p))` is `(True, p)`, and an empty histogram raises.
  */
  function DetectSecondaryHump(h: seq<real>, maxPos: nat): (r: Result<Option<nat>, SignalError>)
    ensures r.Err? <==> |h| == 0
    ensures |h| > 0 && Max(Smooth(h)) == 0.0 ==> r == Ok(None)
    ensures |h| > 0 && Max(Smooth(h)) != 0.0 ==> r == Ok(SideHump(Smooth(h), maxPos, Threshold(Smooth(h))))
    ensures (&& |h| > 0
             && |LeftSide(Smooth(h), maxPos)| <= MinSideLength
             && |RightSide(Smooth(h), maxPos)| <= MinSideLength) ==> r == Ok(None)
    ensures r.Ok? && r.value.Some? ==>
      var sm := Smooth(h);
      r.value.value < |h| && sm[r.value.value] >= Threshold(sm)
  {
    if |h| == 0 then Err(EmptySignal) else Ok(SearchHump(Smooth(h), maxPos))
  }
}

=== FILE: moments.dfy ===
/**
  Population moments of a histogram, taking the bin index as the value and the bin
  count as its weight: `histogram_weighted_mean`, `calculate_skewness` and
  `calculate_kurtosis`.
*/
module Moments {
  import opened Smoothing

  /** `np.sum(h)`. */
  function Total(h: seq<real>): real {
    if |h| == 0 then 0.0 else Total(h[..|h| - 1]) + h[|h| - 1]
  }

  /** Σ i · h[i]. */
  function FirstMoment(h: seq<real>): real {
    if |h| == 0 then 0.0 else FirstMoment(h[..|h| - 1]) + (|h| - 1) as real * h[|h| - 1]
  }

  /** Σ i² · h[i]. */
  function SecondMoment(h: seq<real>): real {
    if |h| == 0 then 0.0
    else
      var x := (|h| - 1) as real;
      SecondMoment(h[..|h| - 1]) + x * x * h[|h| - 1]
  }

  /** x to the power k. */
  function Pow(x: real, k: nat): real {
    if k == 0 then 1.0 else x * Pow(x, k - 1)
  }

  /** a·b as a term of its own, so that equal factors visibly give equal products. */
  function Times(a: real, b: real): real {
    a * b
  }

  /** Σ h[i] · (i − m)^k. */
  function CentralSum(h: seq<real>, m: real, k: nat): real {
    if |h| == 0 then 0.0
    else CentralSum(h[..|h| - 1], m, k) + h[|h| - 1] * Pow((|h| - 1) as real - m, k)
  }

  /** `histogram_weighted_mean`: Σ i·h[i] / Σ h[i], or 0.0 for a zero total. */
  function Mean(h: seq<real>): (r: real)
    ensures Total(h) == 0.0 ==> r == 0.0
    ensures Total(h) != 0.0 ==> r * Total(h) == FirstMoment(h)
  {
    Quotient(FirstMoment(h), Total(h))
  }

  /** f / t, or 0.0 when t is zero. */
  function Quotient(f: real, t: real): real {
    if t == 0.0 then 0.0 else f / t
  }

  /** The population variance Σ h[i]·(i − mean)² / Σ h[i] (only consulted for a non-zero total). */
  function Variance(h: seq<real>): (r: real)
    ensures Total(h) == 0.0 ==> r == 0.0
    ensures Total(h) != 0.0 ==> r * Total(h) == CentralSum(h, Mean(h), 2)
    ensures NonNegative(h) ==> r >= 0.0
  {
    var total := Total(h);
    if total == 0.0 then 0.0
    else
      SpreadNonNegative(h);
      CentralSum(h, Mean(h), 2) / total
  }

  /** For non-negative counts with a non-zero total, Σ h[i]·(i − mean)² / Σ h[i] ≥ 0. */
  lemma SpreadNonNegative(h: seq<real>)
    requires Total(h) != 0.0
    ensures NonNegative(h) ==> CentralSum(h, Mean(h), 2) / Total(h) >= 0.0
  {
    if NonNegative(h) {
      TotalNonNegative(h);
      EvenCentralSumNonNegative(h, Mean(h), 2);
      NonNegativeQuotient(CentralSum(h, Mean(h), 2), Total(h));
    }
  }

  /**
    A skewness Σ h[i]·((i − mean)/σ)³ / Σ h[i] = m3 / variance^(3/2), kept as the pair
    (m3, variance) because it involves a square root. `Undefined` is numpy's NaN from the
    square root of a negative variance, which only negative bins can produce.
  */
  datatype Skewness = ZeroSkew | Skew(m3: real, variance: real) | UndefinedSkew

  /** A kurtosis Σ h[i]·((i − mean)/σ)⁴ / Σ h[i] = m4 / variance², or numpy's NaN. */
  datatype Kurtosis = Kurt(value: real) | UndefinedKurt

  /** `calculate_skewness`. */
  function CalculateSkewness(h: seq<real>): (r: Skewness)
    ensures r == ZeroSkew <==> Total(h) == 0.0 || Variance(h) == 0.0
    ensures r == UndefinedSkew <==> Total(h) != 0.0 && Variance(h) < 0.0
    ensures r.Skew? ==> r.variance > 0.0 && r.variance == Variance(h)
    ensures r.Skew? ==> r.m3 * Total(h) == CentralSum(h, Mean(h), 3)
  {
    var total := Total(h);
    if total == 0.0 then ZeroSkew
    else
      var variance := Variance(h);
      if variance == 0.0 then ZeroSkew
      else if variance < 0.0 then UndefinedSkew
      else Skew(CentralSum(h, Mean(h), 3) / total, variance)
  }

  /** Σ h[i] · ((i − m) / s)^k: the standardised sum `calculate_skewness` evaluates. */
  function StdSum(h: seq<real>, m: real, s: real, k: nat): real
    requires s != 0.0
  {
    if |h| == 0 then 0.0
    else StdSum(h[..|h| - 1], m, s, k) + h[|h| - 1] * Pow(((|h| - 1) as real - m) / s, k)
  }

  /** Standardising each distance by s divides the central sum by s^k. */
  lemma {:induction false} StdSumIsScaled(h: seq<real>, m: real, s: real, k: nat)
    requires s != 0.0
    ensures Pow(s, k) != 0.0
    ensures StdSum(h, m, s, k) == CentralSum(h, m, k) / Pow(s, k)
  {
    PowQuot(1.0, s, k);
    if |h| > 0 {
      var n := |h| - 1;
      var d := n as real - m;
      StdSumIsScaled(h[..n], m, s, k);
      PowQuot(d, s, k);
      ScaledStep(StdSum(h, m, s, k), CentralSum(h, m, k), StdSum(h[..n], m, s, k), CentralSum(h[..n], m, k),
                 h[n], Pow(d / s, k), Pow(d, k), Pow(s, k));
    }
  }

  /**
    One bin of `StdSumIsScaled` over plain numbers: with sp = cp / p and q = c / p, the sums
    sp + w·q and cp + w·c keep the ratio p.
  */
  lemma ScaledStep(std: real, central: real, sp: real, cp: real, w: real, q: real, c: real, p: real)
    requires p != 0.0 && sp == cp / p && q == c / p
    requires std == sp + w * q && central == cp + w * c
    ensures std == central / p
  {
    AddQuot(cp, w, c, p);
  }

  /** (x / s)^k = x^k / s^k, and s^k is non-zero. */
  lemma {:induction false} PowQuot(x: real, s: real, k: nat)
    requires s != 0.0
    ensures Pow(s, k) != 0.0
    ensures Pow(x / s, k) == Pow(x, k) / Pow(s, k)
  {
    if k > 0 {
      PowQuot(x, s, k - 1);
      NonZeroProduct(s, Pow(s, k - 1));
      QuotTimes(x, s, Pow(x, k - 1), Pow(s, k - 1));
    }
  }

  /** A product of non-zero reals is non-zero. */
  lemma NonZeroProduct(x: real, y: real)
    requires x != 0.0 && y != 0.0
    ensures x * y != 0.0
  {
    assert (x * y) / y == x;
  }

  /** (a / b) · (c / d) = (a · c) / (b · d). */
  lemma QuotTimes(a: real, b: real, c: real, d: real)
    requires b != 0.0 && d != 0.0 && b * d != 0.0
    ensures (a / b) * (c / d) == (a * c) / (b * d)
  {
    var q, r := a / b, c / d;
    assert q * b == a && r * d == c;
    assert (q * r) * (b * d) == (q * b) * (r * d);
  }

  /** a / p + w · (c / p) = (a + w · c) / p. */
  lemma AddQuot(a: real, w: real, c: real, p: real)
    requires p != 0.0
    ensures a / p + w * (c / p) == (a + w * c) / p
  {
    var q := c / p;
    assert q * p == c;
    assert (a / p + w * q) * p == a + w * (q * p);
  }

  /**
    The skewness as `calculate_skewness` writes it: with std = s > 0 and s² the variance,
    Σ h·((i − mean)/s)³ / Σ h equals the symbolic m3 over s³.
  */
  lemma SkewnessIsStandardised(h: seq<real>, s: real)
    requires CalculateSkewness(h).Skew? && s > 0.0 && s * s == CalculateSkewness(h).variance
    ensures StdSum(h, Mean(h), s, 3) / Total(h) == CalculateSkewness(h).m3 / (s * s * s)
  {
    var sk := CalculateSkewness(h);
    var c3, t := CentralSum(h, Mean(h), 3), Total(h);
    StdSumIsScaled(h, Mean(h), s, 3);
    SmallPowers(s);
    assert sk.m3 == c3 / t;
    SwapQuot(c3, Pow(s, 3), t);
  }

  /** (a / b) / c = (a / c) / b. */
  lemma SwapQuot(a: real, b: real, c: real)
    requires b != 0.0 && c != 0.0
    ensures (a / b) / c == (a / c) / b
  {
    var q := a / b;
    assert q * b == a;
    assert ((q / c) * c) * b == a;
    assert (q / c) * b == a / c;
  }

  /** Σ h·(i − mean)⁴ / Σ h divided by the squared variance. */
  function FourthStandardized(c4: real, total: real, variance: real): real
    requires total != 0.0 && variance != 0.0
  {
    (c4 / total) / (variance * variance)
  }

  /** `calculate_kurtosis`. */
  function CalculateKurtosis(h: seq<real>): (r: Kurtosis)
    ensures Total(h) == 0.0 || Variance(h) == 0.0 ==> r == Kurt(3.0)
    ensures r == UndefinedKurt <==> Total(h) != 0.0 && Variance(h) < 0.0
  {
    var total := Total(h);
    if total == 0.0 then Kurt(3.0)
    else
      var variance := Variance(h);
      if variance == 0.0 then Kurt(3.0)
      else if variance < 0.0 then UndefinedKurt
      else Kurt(FourthStandardized(CentralSum(h, Mean(h), 4), total, variance))
  }

  /**
    `abs(skewness) > t` for t ≥ 0, decided without the square root: for a positive
    variance v, |m3| / v^(3/2) > t exactly when m3² > t²·v³ (`SkewExceedsIsAbsRatio`).
    NaN compares false.
  */
  predicate SkewExceeds(sk: Skewness, t: real): (b: bool)
    requires t >= 0.0
    ensures b ==> sk.Skew?
    ensures sk.Skew? && sk.variance > 0.0 && t == 0.0 ==> (b <==> sk.m3 != 0.0)
  {
    match sk
    case ZeroSkew => false
    case Skew(m3, v) =>
      ZeroBoundTest(m3, t, v);
      m3 * m3 > t * t * (v * v * v)
    case UndefinedSkew => false
  }

  /** With a zero bound the test m² > t²·v³ asks only whether m is non-zero. */
  lemma ZeroBoundTest(m: real, t: real, v: real)
    ensures t == 0.0 ==> (m * m > t * t * (v * v * v) <==> m != 0.0)
  {
    if t == 0.0 {
      assert t * t * (v * v * v) == 0.0;
      if m != 0.0 {
        SquarePositive(m);
      } else {
        assert m * m == 0.0;
      }
    }
  }

  /** |x|. */
  function Abs(x: real): (r: real)
    ensures r >= 0.0 && (r == x || r == -x)
  {
    if x < 0.0 then -x else x
  }

  /** `abs(kurtosis - 3.0) > t`; NaN compares false. */
  predicate KurtosisDeviates(k: Kurtosis, t: real): (b: bool)
    ensures b <==> k.Kurt? && Abs(k.value - 3.0) > t
  {
    match k
    case Kurt(v) => v - 3.0 > t || 3.0 - v > t
    case UndefinedKurt => false
  }

  /**
    The square-root-free test is exact: with standard deviation s > 0, so variance s²,
    m3² > t²·(s²)³ holds exactly when the skewness m3 / s³ lies beyond ±t.
  */
  lemma SkewExceedsIsAbsRatio(m3: real, s: real, t: real)
    requires s > 0.0 && t >= 0.0
    ensures SkewExceeds(Skew(m3, s * s), t) <==> m3 / (s * s * s) > t || -(m3 / (s * s * s)) > t
  {
    var c := s * s * s;
    var q := m3 / c;
    PositiveProduct(s, s);
    PositiveProduct(s * s, s);
    assert c > 0.0;
    assert (s * s) * (s * s) * (s * s) == c * c;
    assert m3 == q * c;
    assert m3 * m3 == Times(Times(q, q), Times(c, c));
    assert t * t * (c * c) == Times(Times(t, t), Times(c, c));
    SquarePositive(c);
    ScaleOrder(Times(q, q), Times(t, t), Times(c, c));
    AbsBeyond(q, t);
  }

  /** Multiplying by k > 0 keeps strict order both ways. */
  lemma ScaleOrder(a: real, b: real, k: real)
    requires k > 0.0
    ensures Times(a, k) > Times(b, k) <==> a > b
  {
    var d := a - b;
    assert a * k - b * k == d * k;
    if d > 0.0 {
      PositiveProduct(d, k);
    } else {
      NonNegativeProduct(-d, k);
      assert (-d) * k == -(d * k);
    }
  }

  /** A non-zero real has a positive square. */
  lemma SquarePositive(x: real)
    requires x != 0.0
    ensures Times(x, x) > 0.0
  {
    if x < 0.0 {
      PositiveTimes(-x, -x);
      assert Times(x, x) == Times(-x, -x);
    } else {
      PositiveTimes(x, x);
    }
  }

  /** x, y ≥ 0 give x·y ≥ 0. */
  lemma NonNegativeProduct(x: real, y: real)
    requires x >= 0.0 && y >= 0.0
    ensures x * y >= 0.0
  {
  }

  /** For t ≥ 0, q² > t² exactly when q lies beyond ±t. */
  lemma AbsBeyond(q: real, t: real)
    requires t >= 0.0
    ensures Times(q, q) > Times(t, t) <==> q > t || -q > t
  {
    var a := Abs(q);
    assert Times(a, a) == Times(q, q);
    SquareOrder(a, t);
  }

  /** For a, t ≥ 0, a² > t² exactly when a > t. */
  lemma SquareOrder(a: real, t: real)
    requires a >= 0.0 && t >= 0.0
    ensures Times(a, a) > Times(t, t) <==> a > t
  {
    var d, e := a - t, a + t;
    assert a * a - t * t == d * e;
    if d > 0.0 {
      PositiveProduct(d, e);
    } else {
      NonNegativeProduct(-d, e);
      assert (-d) * e == -(d * e);
    }
  }

  /** The small powers the moments use. */
  lemma SmallPowers(x: real)
    ensures Pow(x, 2) == x * x
    ensures Pow(x, 3) == x * x * x
    ensures Pow(x, 4) == (x * x) * (x * x)
  {
    assert Pow(x, 1) == x;
    assert Pow(x, 2) == x * x;
    assert Pow(x, 3) == x * (x * x);
  }

  /** A histogram of non-negative counts has a non-negative total. */
  lemma {:induction false} TotalNonNegative(h: seq<real>)
    requires NonNegative(h)
    ensures Total(h) >= 0.0
  {
    if |h| > 0 {
      TotalNonNegative(h[..|h| - 1]);
    }
  }

  /**
    With non-negative counts that vanish above bin `m`, the first moment lies between 0
    and m times the total.
  */
  lemma {:induction false} FirstMomentBounds(h: seq<real>, m: nat)
    requires NonNegative(h)
    requires forall i :: m < i < |h| ==> h[i] == 0.0
    ensures 0.0 <= FirstMoment(h) <= m as real * Total(h)
  {
    if |h| > 0 {
      var n := |h| - 1;
      FirstMomentBounds(h[..n], m);
      BoundStep(FirstMoment(h[..n]), Total(h[..n]), n as real, m as real, h[n]);
    }
  }

  /**
    The inductive step of `FirstMomentBounds` over plain numbers: adding a bin at position
    x with weight w keeps 0 ≤ f ≤ m·t, when x ≤ m or the bin is empty.
  */
  lemma BoundStep(f: real, t: real, x: real, m: real, w: real)
    requires 0.0 <= f <= m * t && w >= 0.0 && x >= 0.0 && (x <= m || w == 0.0)
    ensures 0.0 <= f + x * w <= m * (t + w)
  {
    if w != 0.0 {
      assert (m - x) * w >= 0.0;
    }
    assert m * (t + w) == m * t + m * w;
  }

  /**
    The weighted mean of non-negative counts with a positive total lies within the bin
    range, and below any bin above which every count is zero.
  */
  lemma MeanWithinOccupiedBins(h: seq<real>, m: nat)
    requires NonNegative(h) && Total(h) > 0.0
    requires forall i :: m < i < |h| ==> h[i] == 0.0
    ensures 0.0 <= Mean(h) <= m as real
  {
    FirstMomentBounds(h, m);
    DivideBound(FirstMoment(h), m as real, Total(h));
    NonNegativeQuotient(FirstMoment(h), Total(h));
  }

  /** The weighted mean of non-negative counts with a positive total is a position in [0, |h| − 1]. */
  lemma MeanWithinBins(h: seq<real>)
    requires NonNegative(h) && Total(h) > 0.0
    ensures 0.0 <= Mean(h) <= (|h| - 1) as real
  {
    MeanWithinOccupiedBins(h, |h| - 1);
  }

  /** Σ h[i]·(i − m)² = Σ i²·h[i] − 2m·Σ i·h[i] + m²·Σ h[i]. */
  lemma {:induction false} CentralSumExpansion(h: seq<real>, m: real)
    ensures CentralSum(h, m, 2)
         == SecondMoment(h) - 2.0 * Times(m, FirstMoment(h)) + Times(Times(m, m), Total(h))
  {
    if |h| > 0 {
      var prefix, x, w := h[..|h| - 1], (|h| - 1) as real, h[|h| - 1];
      CentralSumExpansion(prefix, m);
      LastBin(h, m, x, x - m);
      ExpansionStep(CentralSum(h, m, 2), SecondMoment(h), FirstMoment(h), Total(h),
                    CentralSum(prefix, m, 2), SecondMoment(prefix), FirstMoment(prefix), Total(prefix),
                    w, x, m, x - m);
    }
  }

  /** How each sum grows by the last bin, at position x and distance d from m. */
  lemma LastBin(h: seq<real>, m: real, x: real, d: real)
    requires |h| > 0 && x == (|h| - 1) as real && d == x - m
    ensures var prefix, w := h[..|h| - 1], h[|h| - 1];
      && CentralSum(h, m, 2) == CentralSum(prefix, m, 2) + Times(w, Times(d, d))
      && SecondMoment(h) == SecondMoment(prefix) + Times(Times(x, x), w)
      && FirstMoment(h) == FirstMoment(prefix) + Times(x, w)
      && Total(h) == Total(prefix) + w
  {
    SmallPowers((|h| - 1) as real - m);
  }

  /**
    The algebra of one `CentralSumExpansion` step over plain numbers: adding a bin w at
    position x, distance d = x − m, to sums that satisfy the expansion keeps it.
  */
  lemma ExpansionStep(s: real, q: real, f: real, t: real, sp: real, qp: real, fp: real, tp: real,
                      w: real, x: real, m: real, d: real)
    requires d == x - m
    requires s == sp + Times(w, Times(d, d)) && q == qp + Times(Times(x, x), w)
    requires f == fp + Times(x, w) && t == tp + w
    requires sp == qp - 2.0 * Times(m, fp) + Times(Times(m, m), tp)
    ensures s == q - 2.0 * Times(m, f) + Times(Times(m, m), t)
  {
  }

  /** Even central sums of non-negative counts are non-negative. */
  lemma {:induction false} EvenCentralSumNonNegative(h: seq<real>, m: real, k: nat)
    requires NonNegative(h) && (k == 2 || k == 4)
    ensures CentralSum(h, m, k) >= 0.0
  {
    if |h| > 0 {
      var n := |h| - 1;
      EvenCentralSumNonNegative(h[..n], m, k);
      var d := n as real - m;
      SmallPowers(d);
      assert h[n] * Pow(d, k) >= 0.0;
    }
  }

  /** Non-negative counts never produce a NaN skewness or kurtosis. */
  lemma CountsHaveDefinedMoments(h: seq<real>)
    requires NonNegative(h)
    ensures Variance(h) >= 0.0
    ensures CalculateSkewness(h) != UndefinedSkew
    ensures CalculateKurtosis(h) != UndefinedKurt
  {
    TotalNonNegative(h);
    EvenCentralSumNonNegative(h, Mean(h), 2);
  }

  /** A histogram whose only non-zero bin is `k`. */
  predicate SingleBin(h: seq<real>, k: nat) {
    k < |h| && h[k] != 0.0 && forall i :: 0 <= i < |h| && i != k ==> h[i] == 0.0
  }

  /** Over a prefix ending before or after the single bin, the sums see nothing or just that bin. */
  lemma {:induction false} SingleBinPrefix(h: seq<real>, k: nat, n: nat)
    requires SingleBin(h, k) && n <= |h|
    ensures Total(h[..n]) == (if n > k then h[k] else 0.0)
    ensures FirstMoment(h[..n]) == (if n > k then k as real * h[k] else 0.0)
    ensures CentralSum(h[..n], k as real, 2) == 0.0
  {
    if n > 0 {
      SingleBinPrefix(h, k, n - 1);
      assert h[..n][..n - 1] == h[..n - 1];
      var d := (n - 1) as real - k as real;
      SmallPowers(d);
      if n - 1 != k {
        assert h[..n][n - 1] == 0.0;
      }
    }
  }

  /**
    A histogram with exactly one non-zero bin has its mean at that bin and zero
    variance, so skewness and kurtosis take their defaults 0.0 and 3.0.
  */
  lemma SingleBinIsDegenerate(h: seq<real>, k: nat)
    requires SingleBin(h, k)
    ensures Mean(h) == k as real
    ensures Variance(h) == 0.0
    ensures CalculateSkewness(h) == ZeroSkew
    ensures CalculateKurtosis(h) == Kurt(3.0)
  {
    SingleBinPrefix(h, k, |h|);
    assert h[..|h|] == h;
  }

  /** For non-negative reals, squares preserve order. */
  lemma SquareMonotone(x: real, y: real)
    requires 0.0 <= x && 0.0 <= y && x * x <= y * y
    ensures x <= y
  {
    if x + y > 0.0 {
      assert (y - x) * (x + y) == y * y - x * x;
    }
  }

  /** One step of the weighted Cauchy–Schwarz inequality (A + a)² ≤ (B + b)(C + c). */
  lemma CauchySchwarzStep(A: real, B: real, C: real, a: real, b: real, c: real)
    requires A >= 0.0 && B >= 0.0 && C >= 0.0 && a >= 0.0 && b >= 0.0 && c >= 0.0
    requires A * A <= B * C && a * a == b * c
    ensures (A + a) * (A + a) <= (B + b) * (C + c)
  {
    var x := 2.0 * A * a;
    var y := B * c + b * C;
    assert x * x == 4.0 * (A * A) * (a * a);
    assert 4.0 * (A * A) * (a * a) <= 4.0 * (B * C) * (a * a);
    assert 4.0 * (B * C) * (a * a) == 4.0 * (B * c) * (b * C);
    assert y * y - 4.0 * (B * c) * (b * C) == (B * c - b * C) * (B * c - b * C);
    SquareMonotone(x, y);
  }

  /** (Σ h[i]·(i − m)²)² ≤ Σ h[i] · Σ h[i]·(i − m)⁴ for non-negative counts. */
  lemma {:induction false} SecondSquaredBelowFourth(h: seq<real>, m: real)
    requires NonNegative(h)
    ensures CentralSum(h, m, 2) >= 0.0
    ensures CentralSum(h, m, 2) * CentralSum(h, m, 2) <= Total(h) * CentralSum(h, m, 4)
  {
    if |h| > 0 {
      var n := |h| - 1;
      SecondSquaredBelowFourth(h[..n], m);
      TotalNonNegative(h[..n]);
      EvenCentralSumNonNegative(h[..n], m, 4);
      var d := n as real - m;
      var w := h[n];
      SmallPowers(d);
      assert (w * (d * d)) * (w * (d * d)) == w * (w * ((d * d) * (d * d)));
      CauchySchwarzStep(CentralSum(h[..n], m, 2), Total(h[..n]), CentralSum(h[..n], m, 4),
                        w * (d * d), w, w * ((d * d) * (d * d)));
    }
  }

  /** x = y·t means x / t = y. */
  lemma DivideExact(x: real, y: real, t: real)
    requires t != 0.0 && x == y * t
    ensures x / t == y
  {}

  /** x ≤ t·y means x / t ≤ y, for positive t. */
  lemma DivideBound(x: real, y: real, t: real)
    requires t > 0.0 && x <= t * y
    ensures x / t <= y
  {
    assert (x / t) * t == x;
  }

  /** Division by a positive number keeps order. */
  lemma DivideMonotone(x: real, y: real, t: real)
    requires t > 0.0 && x <= y
    ensures x / t <= y / t
  {
    assert (x / t) * t == x;
    assert (y / t) * t == y;
  }

  /** (c² / t) / t = (c / t)². */
  lemma SquareOfQuotientIdentity(c: real, t: real)
    requires t > 0.0
    ensures ((c * c) / t) / t == (c / t) * (c / t)
  {
    var a := c / t;
    assert a * t == c;
    assert c * c == ((a * a) * t) * t;
    DivideExact(c * c, (a * a) * t, t);
    DivideExact((a * a) * t, a * a, t);
  }

  /** The square of the variance c2/t is at most the fourth moment c4/t when c2² ≤ t·c4. */
  lemma SquareOfQuotient(c2: real, c4: real, t: real)
    requires t > 0.0 && c2 * c2 <= t * c4
    ensures (c2 / t) * (c2 / t) <= c4 / t
  {
    DivideBound(c2 * c2, c4, t);
    DivideMonotone((c2 * c2) / t, c4, t);
    SquareOfQuotientIdentity(c2, t);
  }

  /** A non-negative number divided by a positive one is non-negative. */
  lemma NonNegativeQuotient(x: real, t: real)
    requires x >= 0.0 && t > 0.0
    ensures x / t >= 0.0
  {
    assert (x / t) * t == x;
  }

  /** A product of positive reals is positive. */
  lemma PositiveProduct(x: real, y: real)
    requires x > 0.0 && y > 0.0
    ensures x * y > 0.0
  {}

  /** `PositiveProduct` stated on `Times`, which also holds for a square. */
  lemma PositiveTimes(x: real, y: real)
    requires x > 0.0 && y > 0.0
    ensures Times(x, y) > 0.0
  {
    PositiveProduct(x, y);
  }

  /** x / y ≥ 1 when x ≥ y > 0. */
  lemma QuotientAtLeastOne(x: real, y: real)
    requires y > 0.0 && x >= y
    ensures x / y >= 1.0
  {}

  /** (c4/t) / (c2/t)² ≥ 1 when c2² ≤ t·c4 and c2/t is positive. */
  lemma StandardizedFourthAtLeastOne(c2: real, c4: real, t: real)
    requires t > 0.0 && c2 / t > 0.0 && c2 * c2 <= t * c4
    ensures FourthStandardized(c4, t, c2 / t) >= 1.0
  {
    SquareOfQuotient(c2, c4, t);
    PositiveProduct(c2 / t, c2 / t);
    QuotientAtLeastOne(c4 / t, (c2 / t) * (c2 / t));
  }

  /** The kurtosis of non-negative counts is never below 1 (Pearson's bound). */
  lemma KurtosisAtLeastOne(h: seq<real>)
    requires NonNegative(h)
    ensures CalculateKurtosis(h).Kurt? && CalculateKurtosis(h).value >= 1.0
  {
    var total := Total(h);
    TotalNonNegative(h);
    if total != 0.0 {
      var c2 := CentralSum(h, Mean(h), 2);
      var c4 := CentralSum(h, Mean(h), 4);
      assert Variance(h) == c2 / total;
      SecondSquaredBelowFourth(h, Mean(h));
      NonNegativeQuotient(c2, total);
      if c2 / total != 0.0 {
        StandardizedFourthAtLeastOne(c2, c4, total);
      }
    }
  }

  /** The histogram read from its last bin to its first. */
  function Mirror(h: seq<real>): (r: seq<real>)
    ensures |r| == |h| && forall i :: 0 <= i < |h| ==> r[i] == h[|h| - 1 - i]
  {
    seq(|h|, i requires 0 <= i < |h| => h[|h| - 1 - i])
  }

  /** (−x)^k = (−1)^k · x^k. */
  lemma {:induction false} PowNegate(x: real, k: nat)
    ensures Pow(-x, k) == (if k % 2 == 0 then Pow(x, k) else -Pow(x, k))
  {
    if k > 0 {
      PowNegate(x, k - 1);
    }
  }

  /** Peeling the first bin instead of the last: the remaining bins sit one position lower. */
  lemma {:induction false} FirstBin(h: seq<real>)
    requires |h| > 0
    ensures Total(h) == h[0] + Total(h[1..])
    ensures FirstMoment(h) == FirstMoment(h[1..]) + Total(h[1..])
  {
    var n := |h| - 1;
    if n > 0 {
      var p, q := h[..n], h[1..];
      FirstBin(p);
      assert p[1..] == q[..n - 1];
    } else {
      assert h[..0] == [] && h[1..] == [];
    }
  }

  /** The first bin's share of a central sum: the remaining bins sit one position lower. */
  lemma {:induction false} FirstBinCentral(h: seq<real>, m: real, k: nat)
    requires |h| > 0
    ensures CentralSum(h, m, k) == Times(h[0], Pow(-m, k)) + CentralSum(h[1..], m - 1.0, k)
  {
    var n := |h| - 1;
    if n > 0 {
      var p, q := h[..n], h[1..];
      FirstBinCentral(p, m, k);
      assert p[1..] == q[..n - 1];
      CentralSumLast(h, m, k);
      CentralSumLast(q, m - 1.0, k);
      PowCongruent((|q| - 1) as real - (m - 1.0), (|h| - 1) as real - m, k);
    } else {
      assert h[..0] == [] && h[1..] == [];
    }
  }

  /** The mirror without its last bin is the mirror of the bins after the first. */
  lemma MirrorTail(h: seq<real>)
    requires |h| > 0
    ensures Mirror(h)[..|h| - 1] == Mirror(h[1..])
    ensures Mirror(h)[|h| - 1] == h[0]
  {
  }

  /** Mirroring keeps the total. */
  lemma {:induction false} MirrorTotal(h: seq<real>)
    ensures Total(Mirror(h)) == Total(h)
  {
    if |h| > 0 {
      MirrorTail(h);
      MirrorTotal(h[1..]);
      FirstBin(h);
    }
  }

  /** Mirroring reflects the first moment about the last position. */
  lemma {:induction false} MirrorFirstMoment(h: seq<real>)
    ensures FirstMoment(Mirror(h)) == (|h| - 1) as real * Total(h) - FirstMoment(h)
  {
    if |h| > 0 {
      var t := h[1..];
      MirrorTail(h);
      MirrorFirstMoment(t);
      ReversedMomentStep(h, Mirror(h), Mirror(t), (|h| - 1) as real, (|t| - 1) as real);
    }
  }

  /** The last bin's share of the first moment, its position written n. */
  lemma FirstMomentLast(r: seq<real>, n: real)
    requires |r| > 0 && n == (|r| - 1) as real
    ensures FirstMoment(r) == FirstMoment(r[..|r| - 1]) + Times(n, r[|r| - 1])
  {}

  /**
    One step of `MirrorFirstMoment` for any `r` whose last bin is h[0] and whose other
    bins `u` already reflect the first moment of the bins of `h` after the first; n is
    the last position of `h` and n1 = n − 1 that of the bins after the first.
  */
  lemma ReversedMomentStep(h: seq<real>, r: seq<real>, u: seq<real>, n: real, n1: real)
    requires |h| > 0 && |r| == |h| && r[..|r| - 1] == u && r[|r| - 1] == h[0]
    requires n == (|r| - 1) as real && n1 == n - 1.0
    requires FirstMoment(u) == Times(n1, Total(h[1..])) - FirstMoment(h[1..])
    ensures FirstMoment(r) == Times(n, Total(h)) - FirstMoment(h)
  {
    FirstMomentLast(r, n);
    FirstBin(h);
    ReflectStep(n, n1, r[|r| - 1], h[0], Total(h[1..]), FirstMoment(h[1..]),
                Total(h), FirstMoment(h), FirstMoment(r), FirstMoment(u));
  }

  /**
    The algebra of one `MirrorFirstMoment` step over plain numbers: the mirror's moment
    fr adds n·w to the moment fu of the other bins; the original's total and moment add
    the first bin w0 = w and shift the rest by one.
  */
  lemma ReflectStep(n: real, n1: real, w: real, w0: real, total: real, f: real,
                    tt: real, ft: real, fr: real, fu: real)
    requires n1 == n - 1.0
    requires fr == fu + Times(n, w) && w == w0
    requires tt == w0 + total && ft == f + total
    requires fu == Times(n1, total) - f
    ensures fr == Times(n, tt) - ft
  {}

  /** The last bin's share of a central sum. */
  lemma CentralSumLast(r: seq<real>, c: real, k: nat)
    requires |r| > 0
    ensures CentralSum(r, c, k)
         == CentralSum(r[..|r| - 1], c, k) + Times(r[|r| - 1], Pow((|r| - 1) as real - c, k))
  {
  }

  /** The distance n − c from a centre c reflected about n is the original distance m. */
  lemma PowAtReflection(n: int, c: real, m: real, k: nat)
    requires c == n as real - m
    ensures Pow(n as real - c, k) == Pow(m, k)
  {
    PowCongruent(n as real - c, m, k);
  }

  /** Equal bases give equal powers. */
  lemma PowCongruent(x: real, y: real, k: nat)
    requires x == y
    ensures Pow(x, k) == Pow(y, k)
  {
  }

  /**
    Mirroring multiplies the k-th central sum by (−1)^k when the centre c is reflected
    too (c = |h| − 1 − m).
  */
  lemma {:induction false} MirrorCentralSum(h: seq<real>, m: real, c: real, k: nat)
    requires c == (|h| - 1) as real - m
    ensures CentralSum(Mirror(h), c, k) == (if k % 2 == 0 then CentralSum(h, m, k) else -CentralSum(h, m, k))
  {
    if |h| > 0 {
      MirrorCentralSum(h[1..], m - 1.0, c, k);
      MirrorTail(h);
      assert c == (|Mirror(h)| - 1) as real - m;
      ReversedStep(h, Mirror(h), Mirror(h[1..]), m, c, k);
    }
  }

  /**
    The inductive step of `MirrorCentralSum` for any `r` whose last bin is h[0] and whose
    other bins `u` already satisfy the property for the bins of `h` after the first.
  */
  lemma ReversedStep(h: seq<real>, r: seq<real>, u: seq<real>, m: real, c: real, k: nat)
    requires |h| > 0 && |r| == |h| && c == (|r| - 1) as real - m
    requires r[..|r| - 1] == u && r[|r| - 1] == h[0]
    requires CentralSum(u, c, k) == (if k % 2 == 0 then CentralSum(h[1..], m - 1.0, k) else -CentralSum(h[1..], m - 1.0, k))
    ensures CentralSum(r, c, k) == (if k % 2 == 0 then CentralSum(h, m, k) else -CentralSum(h, m, k))
  {
    ReflectedLastBin(r, u, h[0], m, c, k);
    SignedFirstBin(h, m, k);
    SignStep(CentralSum(r, c, k), CentralSum(u, c, k), CentralSum(h, m, k),
             CentralSum(h[1..], m - 1.0, k), Times(h[0], Pow(m, k)), k);
  }

  /** The first bin of h, at distance −m from the centre m, adds ±h[0]·m^k. */
  lemma SignedFirstBin(h: seq<real>, m: real, k: nat)
    requires |h| > 0
    ensures CentralSum(h, m, k)
         == (if k % 2 == 0 then Times(h[0], Pow(m, k)) else -Times(h[0], Pow(m, k)))
            + CentralSum(h[1..], m - 1.0, k)
  {
    FirstBinCentral(h, m, k);
    WeightNegated(h[0], m, k);
  }

  /** The last bin of r, at distance m from the reflected centre c, adds w·m^k. */
  lemma ReflectedLastBin(r: seq<real>, u: seq<real>, w: real, m: real, c: real, k: nat)
    requires |r| > 0 && r[..|r| - 1] == u && r[|r| - 1] == w && c == (|r| - 1) as real - m
    ensures CentralSum(r, c, k) == CentralSum(u, c, k) + Times(w, Pow(m, k))
  {
    CentralSumLast(r, c, k);
    PowAtReflection(|r| - 1, c, m, k);
  }

  /** w·(−m)^k is w·m^k with the sign of (−1)^k. */
  lemma WeightNegated(w: real, m: real, k: nat)
    ensures Times(w, Pow(-m, k))
         == (if k % 2 == 0 then Times(w, Pow(m, k)) else -Times(w, Pow(m, k)))
  {
    PowNegate(m, k);
  }

  /**
    The algebra of one `MirrorCentralSum` step over plain numbers: the mirrored sum cr
    adds the first bin's term wp to cu = ±b, and the original ch adds its reflected
    term wpn = ±wp to b.
  */
  lemma SignStep(cr: real, cu: real, ch: real, b: real, wp: real, k: nat)
    requires cr == cu + wp && cu == (if k % 2 == 0 then b else -b)
    requires ch == (if k % 2 == 0 then wp else -wp) + b
    ensures cr == (if k % 2 == 0 then ch else -ch)
  {
  }

  /** (−c) / t = −(c / t). */
  lemma NegatedQuotient(c: real, t: real)
    requires t != 0.0
    ensures (-c) / t == -(c / t)
  {
    DivideExact(-c, -(c / t), t);
  }

  /** The skewness with the sign of its third moment reversed. */
  function Negated(sk: Skewness): Skewness {
    match sk
    case Skew(m3, v) => Skew(-m3, v)
    case _ => sk
  }

  /** (n·t − f) / t = n − f / t: reflecting the first moment reflects the quotient. */
  lemma ReflectedRatio(n: real, f: real, total: real, fr: real, tr: real)
    requires tr == total && fr == n * total - f
    ensures total != 0.0 ==> Quotient(fr, tr) == n - Quotient(f, total)
  {
    if total != 0.0 {
      DivideExact(n * total - f, n - f / total, total);
    }
  }

  /** A histogram `r` with the same total and the reflected first moment has the reflected mean. */
  lemma ReflectedMean(h: seq<real>, r: seq<real>, n: real)
    requires Total(r) == Total(h) && FirstMoment(r) == n * Total(h) - FirstMoment(h)
    ensures Total(h) != 0.0 ==> Mean(r) == n - Mean(h)
  {
    ReflectedRatio(n, FirstMoment(h), Total(h), FirstMoment(r), Total(r));
  }

  /** Reading a histogram backwards keeps its total and reflects its mean about the centre. */
  lemma MirrorMean(h: seq<real>)
    ensures Total(Mirror(h)) == Total(h)
    ensures Total(h) != 0.0 ==> Mean(Mirror(h)) == (|h| - 1) as real - Mean(h)
  {
    MirrorTotal(h);
    MirrorFirstMoment(h);
    ReflectedMean(h, Mirror(h), (|h| - 1) as real);
  }

  /** Reading a histogram backwards keeps its variance. */
  lemma MirrorVariance(h: seq<real>)
    ensures Variance(Mirror(h)) == Variance(h)
  {
    MirrorMean(h);
    if Total(h) != 0.0 {
      MirrorCentralSum(h, Mean(h), (|h| - 1) as real - Mean(h), 2);
    }
  }

  /**
    Reading a histogram backwards reverses the sign of its skewness and keeps its
    kurtosis.
  */
  lemma MirrorFlipsSkewness(h: seq<real>)
    ensures CalculateSkewness(Mirror(h)) == Negated(CalculateSkewness(h))
    ensures CalculateKurtosis(Mirror(h)) == CalculateKurtosis(h)
  {
    MirrorVariance(h);
    MirrorMean(h);
    var total := Total(h);
    if total != 0.0 && Variance(h) > 0.0 {
      var mean := Mean(h);
      MirrorCentralSum(h, mean, (|h| - 1) as real - mean, 3);
      MirrorCentralSum(h, mean, (|h| - 1) as real - mean, 4);
      NegatedQuotient(CentralSum(h, mean, 3), total);
    }
  }

  /** A histogram that reads the same backwards is its own mirror. */
  lemma SymmetricIsOwnMirror(h: seq<real>)
    requires forall i :: 0 <= i < |h| ==> h[i] == h[|h| - 1 - i]
    ensures Mirror(h) == h
  {
  }

  /**
    A histogram that reads the same backwards has its mean at the centre and a zero third
    moment, so it is never flagged for skewness.
  */
  lemma SymmetricHasNoSkew(h: seq<real>, t: real)
    requires forall i :: 0 <= i < |h| ==> h[i] == h[|h| - 1 - i]
    requires t >= 0.0
    ensures Total(h) != 0.0 ==> Mean(h) == (|h| - 1) as real / 2.0
    ensures CalculateSkewness(h).Skew? ==> CalculateSkewness(h).m3 == 0.0
    ensures !SkewExceeds(CalculateSkewness(h), t)
  {
    SymmetricIsOwnMirror(h);
    MirrorMean(h);
    MirrorFlipsSkewness(h);
    if Total(h) != 0.0 {
      SelfReflection(Mean(h), (|h| - 1) as real);
    }
    NegationFixed(CalculateSkewness(h), t);
  }

  /** x = n − x only at the midpoint n / 2. */
  lemma SelfReflection(x: real, n: real)
    requires x == n - x
    ensures x == n / 2.0
  {
  }

  /** A skewness equal to its own negation has a zero third moment and exceeds no bound. */
  lemma NegationFixed(sk: Skewness, t: real)
    requires Negated(sk) == sk && t >= 0.0
    requires sk.Skew? ==> sk.variance > 0.0
    ensures sk.Skew? ==> sk.m3 == 0.0
    ensures !SkewExceeds(sk, t)
  {
  }
}

=== FILE: peaks.dfy ===
/**
  `find_peaks_simple`: strict local maxima, then a height filter, a greedy
  left-to-right distance filter and a whole-array prominence filter, in that order.
*/
module Peaks {
  import opened Wrappers
  import opened Signals

  /** Index `i` is strictly above both neighbours; plateaus and the two end bins never qualify. */
  predicate IsLocalMax(s: seq<real>, i: int) {
    1 <= i < |s| - 1 && s[i] > s[i - 1] && s[i] > s[i + 1]
  }

  /** Every element of `r` occurs in `ps`. */
  predicate Within(r: seq<nat>, ps: seq<nat>) {
    forall x :: x in r ==> x in ps
  }

  /** The strict local maxima at positions `from` .. |s|−2, in order (the candidate loop). */
  function LocalMaxima(s: seq<real>, from: nat): (r: seq<nat>)
    requires from >= 1
    decreases |s| - from
    ensures StrictlyAscending(r)
    ensures forall x :: x in r ==> from <= x && IsLocalMax(s, x)
    ensures forall i :: from <= i && IsLocalMax(s, i) ==> i in r
  {
    if from >= |s| - 1 then []
    else
      var rest := LocalMaxima(s, from + 1);
      assert forall k :: 0 <= k < |rest| ==> rest[k] in rest;
      if IsLocalMax(s, from) then [from] + rest else rest
  }

  /**
    Prepending the head of an ascending list to elements drawn, in order, from its tail
    keeps the result ascending.
  */
  lemma PrependHead(ps: seq<nat>, rest: seq<nat>)
    requires |ps| > 0 && Within(rest, ps[1..])
    ensures StrictlyAscending(ps) && StrictlyAscending(rest) ==> StrictlyAscending([ps[0]] + rest)
  {
    if StrictlyAscending(ps) {
      forall k | 0 <= k < |rest|
        ensures ps[0] < rest[k]
      {
        assert rest[k] in ps[1..];
        var j :| 0 <= j < |ps[1..]| && ps[1..][j] == rest[k];
        assert ps[j + 1] == rest[k];
      }
    }
  }

  /** Keeps the candidates whose value reaches `height` (`peaks[peak_heights >= height]`). */
  function FilterHeight(s: seq<real>, ps: seq<nat>, height: real): (r: seq<nat>)
    requires forall x :: x in ps ==> x < |s|
    ensures Within(r, ps)
    ensures forall x :: x in r ==> x < |s| && s[x] >= height
    ensures forall x :: x in ps && s[x] >= height ==> x in r
    ensures StrictlyAscending(ps) ==> StrictlyAscending(r)
  {
    if |ps| == 0 then []
    else
      assert ps[0] in ps && forall x :: x in ps[1..] ==> x in ps;
      var rest := FilterHeight(s, ps[1..], height);
      PrependHead(ps, rest);
      if s[ps[0]] >= height then [ps[0]] + rest else rest
  }

  /** Any two kept positions are at least `d` apart. */
  predicate Spaced(r: seq<nat>, d: int) {
    forall x, y :: x in r && y in r && x < y ==> y - x >= d
  }

  /**
    The loop over `peaks[1:]`: `kept` is `filtered_peaks`, a candidate is appended when it
    lies at least `d` after the last kept one.
  */
  function GreedyFrom(kept: seq<nat>, rest: seq<nat>, d: int): (r: seq<nat>)
    requires |kept| > 0
    requires StrictlyAscending(kept) && StrictlyAscending(rest) && Spaced(kept, d)
    requires forall k :: 0 <= k < |rest| ==> kept[|kept| - 1] < rest[k]
    decreases |rest|
    ensures |kept| <= |r| && r[..|kept|] == kept
    ensures StrictlyAscending(r) && Spaced(r, d)
    ensures forall k :: |kept| <= k < |r| ==> r[k] in rest
    ensures forall x :: x in rest && x !in r ==> exists y :: y in r && y < x && x - y < d
  {
    if |rest| == 0 then kept
    else
      var last := kept[|kept| - 1];
      if rest[0] - last >= d then
        var kept' := kept + [rest[0]];
        assert forall y :: y in kept ==> y <= last;
        GreedyFrom(kept', rest[1..], d)
      else
        var r := GreedyFrom(kept, rest[1..], d);
        assert last in r by { assert r[|kept| - 1] == last; }
        r
  }

  /**
    The distance filter: keep the first candidate, then greedily every candidate at least
    `d` after the last kept one (the source applies it only to two or more candidates).
  */
  function FilterDistance(ps: seq<nat>, d: int): (r: seq<nat>)
    requires StrictlyAscending(ps)
    ensures StrictlyAscending(r) && Spaced(r, d) && Within(r, ps)
    ensures |ps| > 0 ==> |r| > 0 && r[0] == ps[0]
    ensures forall x :: x in ps && x !in r ==> exists y :: y in r && y < x && x - y < d
  {
    if |ps| > 1 then
      var r := GreedyFrom([ps[0]], ps[1..], d);
      assert Within(r, ps) by {
        forall x | x in r ensures x in ps {
          var k :| 0 <= k < |r| && r[k] == x;
          if k >= 1 {
            assert r[k] in ps[1..];
          }
        }
      }
      r
    else ps
  }

  /** `np.min(signal[:p+1])` for p > 0, and the peak value itself at p = 0. */
  function LeftMin(s: seq<real>, p: nat): (r: real)
    requires p < |s|
    ensures forall j :: 0 <= j <= p ==> r <= s[j]
    ensures exists j :: 0 <= j <= p && s[j] == r
  {
    if p > 0 then
      assert forall j :: 0 <= j <= p ==> s[..p + 1][j] == s[j];
      Min(s[..p + 1])
    else s[p]
  }

  /** `np.min(signal[p:])` for p < |s|−1, and the peak value itself at the last bin. */
  function RightMin(s: seq<real>, p: nat): (r: real)
    requires p < |s|
    ensures forall j :: p <= j < |s| ==> r <= s[j]
    ensures exists j :: p <= j < |s| && s[j] == r
  {
    if p < |s| - 1 then
      assert forall j :: p <= j < |s| ==> s[p..][j - p] == s[j];
      var m := Min(s[p..]);
      assert exists j :: p <= j < |s| && s[j] == m by {
        var k :| 0 <= k < |s| - p && s[p..][k] == m;
        assert s[p + k] == m;
      }
      m
    else s[p]
  }

  /** The simplified prominence: the peak's height above the higher of its two whole-side minima. */
  function Prominence(s: seq<real>, p: nat): (r: real)
    requires p < |s|
    ensures r >= 0.0
    ensures r == s[p] - LeftMin(s, p) || r == s[p] - RightMin(s, p)
    ensures r <= s[p] - LeftMin(s, p) && r <= s[p] - RightMin(s, p)
  {
    s[p] - Larger(LeftMin(s, p), RightMin(s, p))
  }

  /** Position `p` is a bin whose prominence reaches `prom`. */
  predicate Prominent(s: seq<real>, p: nat, prom: real) {
    p < |s| && Prominence(s, p) >= prom
  }

  /**
    A peak is prominent by `prom` exactly when some bin at or left of it, and some bin at
    or right of it, lies at least `prom` below it.
  */
  lemma ProminenceIsValleyDepth(s: seq<real>, p: nat, prom: real)
    requires p < |s|
    ensures Prominent(s, p, prom) <==>
      (exists j :: 0 <= j <= p && s[j] <= s[p] - prom)
      && (exists j :: p <= j < |s| && s[j] <= s[p] - prom)
  {
    var c := s[p] - prom;
    var l :| 0 <= l <= p && s[l] == LeftMin(s, p);
    var r :| p <= r < |s| && s[r] == RightMin(s, p);
    if Prominent(s, p, prom) {
      assert s[l] <= c && s[r] <= c;
    }
  }

  /** Keeps the candidates whose prominence reaches `prom`, in their original order. */
  function FilterProminence(s: seq<real>, ps: seq<nat>, prom: real): (r: seq<nat>)
    ensures Within(r, ps)
    ensures forall x :: x in r ==> Prominent(s, x, prom)
    ensures forall x :: x in ps && Prominent(s, x, prom) ==> x in r
    ensures StrictlyAscending(ps) ==> StrictlyAscending(r)
  {
    if |ps| == 0 then []
    else
      var rest := FilterProminence(s, ps[1..], prom);
      PrependHead(ps, rest);
      if Prominent(s, ps[0], prom) then [ps[0]] + rest else rest
  }

  /** Every position is a strict local maximum. */
  predicate AllLocalMax(s: seq<real>, r: seq<nat>) {
    forall x :: x in r ==> IsLocalMax(s, x)
  }

  /** Every position addresses a value reaching `height`. */
  predicate AllReach(s: seq<real>, r: seq<nat>, height: real) {
    forall x :: x in r ==> x < |s| && s[x] >= height
  }

  /** Every position is prominent by `prom`. */
  predicate AllProminent(s: seq<real>, r: seq<nat>, prom: real) {
    forall x :: x in r ==> Prominent(s, x, prom)
  }

  /** A selection from a list keeps every per-position property and the spacing of the list. */
  lemma Narrow(s: seq<real>, r: seq<nat>, ps: seq<nat>, height: real, d: int, prom: real)
    requires Within(r, ps)
    ensures AllLocalMax(s, ps) ==> AllLocalMax(s, r)
    ensures AllReach(s, ps, height) ==> AllReach(s, r, height)
    ensures AllProminent(s, ps, prom) ==> AllProminent(s, r, prom)
    ensures Spaced(ps, d) ==> Spaced(r, d)
  {
  }

  /** The height stage: applied when a height is given. */
  function ByHeight(s: seq<real>, ps: seq<nat>, height: Option<real>): (r: seq<nat>)
    requires forall x :: x in ps ==> x < |s|
    ensures Within(r, ps)
    ensures StrictlyAscending(ps) ==> StrictlyAscending(r)
    ensures height.Some? ==> AllReach(s, r, height.value)
  {
    if height.Some? then FilterHeight(s, ps, height.value) else ps
  }

  /** The distance stage: applied when a distance is given and two or more candidates remain. */
  function ByDistance(ps: seq<nat>, distance: Option<int>): (r: seq<nat>)
    requires StrictlyAscending(ps)
    ensures Within(r, ps) && StrictlyAscending(r)
    ensures distance.Some? ==> Spaced(r, distance.value)
  {
    if distance.Some? && |ps| > 1 then FilterDistance(ps, distance.value) else ps
  }

  /** The prominence stage: applied when a prominence is given and candidates remain. */
  function ByProminence(s: seq<real>, ps: seq<nat>, prominence: Option<real>): (r: seq<nat>)
    ensures Within(r, ps)
    ensures StrictlyAscending(ps) ==> StrictlyAscending(r)
    ensures prominence.Some? ==> AllProminent(s, r, prominence.value)
  {
    if prominence.Some? && |ps| > 0 then FilterProminence(s, ps, prominence.value) else ps
  }

  /** `find_peaks_simple(signal, height, distance, prominence)`; an absent bound skips its filter. */
  function FindPeaks(s: seq<real>, height: Option<real>, distance: Option<int>, prominence: Option<real>)
    : (r: seq<nat>)
    ensures StrictlyAscending(r)
    ensures forall x :: x in r ==> IsLocalMax(s, x)
    ensures height.Some? ==> forall x :: x in r ==> x < |s| && s[x] >= height.value
    ensures distance.Some? ==> Spaced(r, distance.value)
    ensures prominence.Some? ==> forall x :: x in r ==> Prominent(s, x, prominence.value)
  {
    var candidates := LocalMaxima(s, 1);
    if |candidates| == 0 then []
    else
      var high := ByHeight(s, candidates, height);
      if |high| == 0 then []
      else
        var spaced := ByDistance(high, distance);
        var prominent := ByProminence(s, spaced, prominence);
        var hv := if height.Some? then height.value else 0.0;
        var dv := if distance.Some? then distance.value else 0;
        var pv := if prominence.Some? then prominence.value else 0.0;
        Narrow(s, high, candidates, hv, dv, pv);
        Narrow(s, spaced, high, hv, dv, pv);
        Narrow(s, prominent, spaced, hv, dv, pv);
        prominent
  }

  /** With no bounds, the peaks are exactly the strict interior local maxima. */
  lemma {:induction false} UnboundedPeaksAreLocalMaxima(s: seq<real>)
    ensures forall x :: x in FindPeaks(s, None, None, None) <==> IsLocalMax(s, x)
  {
    var candidates := LocalMaxima(s, 1);
    assert FindPeaks(s, None, None, None) == candidates;
  }

  /** With only a height, the peaks are exactly the local maxima reaching it. */
  lemma {:induction false} HeightOnlyPeaks(s: seq<real>, height: real)
    ensures forall x :: x in FindPeaks(s, Some(height), None, None) <==>
      IsLocalMax(s, x) && s[x] >= height
  {
    var candidates := LocalMaxima(s, 1);
    if |candidates| > 0 {
      assert FindPeaks(s, Some(height), None, None) == FilterHeight(s, candidates, height);
    }
  }

  /**
    With only a distance, the leftmost local maximum is always kept, and a local maximum
    is dropped only because a kept one lies before it closer than the distance.
  */
  lemma {:induction false} DistanceOnlyPeaks(s: seq<real>, d: int)
    ensures var r := FindPeaks(s, None, Some(d), None);
      && Within(r, LocalMaxima(s, 1))
      && (|LocalMaxima(s, 1)| > 0 ==> |r| > 0 && r[0] == LocalMaxima(s, 1)[0])
      && forall x :: IsLocalMax(s, x) && x !in r ==> exists y :: y in r && y < x && x - y < d
  {
    var candidates := LocalMaxima(s, 1);
    var r := FindPeaks(s, None, Some(d), None);
    if |candidates| > 1 {
      assert r == FilterDistance(candidates, d);
    } else {
      assert r == candidates;
    }
  }

  /**
    With all three bounds, the peaks are exactly the local maxima that reach the height,
    survive the distance filter, and stand out by the prominence.
  */
  lemma {:induction false} AllBoundsPeaks(s: seq<real>, height: real, d: int, prom: real)
    ensures var high := FilterHeight(s, LocalMaxima(s, 1), height);
      forall x :: x in FindPeaks(s, Some(height), Some(d), Some(prom)) <==>
        x in FilterDistance(high, d) && Prominent(s, x, prom)
  {
    var candidates := LocalMaxima(s, 1);
    var high := FilterHeight(s, candidates, height);
    var r := FindPeaks(s, Some(height), Some(d), Some(prom));
    var spaced := FilterDistance(high, d);
    if |high| == 0 {
      assert r == [];
    } else {
      if |high| == 1 {
        assert forall x :: x in spaced <==> x in high by {
          forall x | x in spaced ensures x in high { }
          assert spaced[0] == high[0];
        }
      }
      assert |candidates| > 0 by {
        assert high[0] in candidates;
      }
      var prominent := FilterProminence(s, ByDistance(high, Some(d)), prom);
      assert r == prominent;
    }
  }
}

=== FILE: signals.dfy ===
/** Basic facts about numeric signals and index lists: extrema, arg-max and ordering. */
module Signals {

  /** The error numpy raises when asked for the maximum of an empty array. */
  datatype SignalError = EmptySignal

  /** Indices in strictly increasing order, hence without duplicates. */
  predicate StrictlyAscending(xs: seq<nat>) {
    forall i, j :: 0 <= i < j < |xs| ==> xs[i] < xs[j]
  }

  /** The larger of two reals (Python's `max(a, b)`). */
  function Larger(a: real, b: real): (m: real)
    ensures m >= a && m >= b
    ensures m == a || m == b
  {
    if a >= b then a else b
  }

  /** The maximum element of a non-empty signal (`np.max`). */
  function Max(s: seq<real>): (m: real)
    requires |s| > 0
    ensures forall i :: 0 <= i < |s| ==> s[i] <= m
    ensures exists i :: 0 <= i < |s| && s[i] == m
  {
    if |s| == 1 then s[0]
    else
      var m' := Max(s[..|s| - 1]);
      assert forall i :: 0 <= i < |s| - 1 ==> s[..|s| - 1][i] == s[i];
      if s[|s| - 1] > m' then s[|s| - 1] else m'
  }

  /** The minimum element of a non-empty signal (`np.min`). */
  function Min(s: seq<real>): (m: real)
    requires |s| > 0
    ensures forall i :: 0 <= i < |s| ==> m <= s[i]
    ensures exists i :: 0 <= i < |s| && s[i] == m
  {
    if |s| == 1 then s[0]
    else
      var m' := Min(s[..|s| - 1]);
      assert forall i :: 0 <= i < |s| - 1 ==> s[..|s| - 1][i] == s[i];
      if s[|s| - 1] < m' then s[|s| - 1] else m'
  }

  /** The position of the first maximal element (`np.argmax`, which breaks ties to the left). */
  function ArgMax(s: seq<real>): (k: nat)
    requires |s| > 0
    ensures k < |s|
    ensures forall i :: 0 <= i < |s| ==> s[i] <= s[k]
    ensures forall i :: 0 <= i < k ==> s[i] < s[k]
  {
    if |s| == 1 then 0
    else
      var k' := ArgMax(s[..|s| - 1]);
      assert forall i :: 0 <= i < |s| - 1 ==> s[..|s| - 1][i] == s[i];
      if s[|s| - 1] > s[k'] then |s| - 1 else k'
  }

  /** The arg-max addresses the maximum. */
  lemma ArgMaxIsMax(s: seq<real>)
    requires |s| > 0
    ensures s[ArgMax(s)] == Max(s)
  {
    var k := ArgMax(s);
    var i :| 0 <= i < |s| && s[i] == Max(s);
    assert s[k] >= s[i];
  }

  /** A minimum is at most a bound exactly when some element is. */
  lemma MinAtMost(s: seq<real>, c: real)
    requires |s| > 0
    ensures Min(s) <= c <==> exists j :: 0 <= j < |s| && s[j] <= c
  {
    if Min(s) <= c {
      var j :| 0 <= j < |s| && s[j] == Min(s);
      assert s[j] <= c;
    }
  }
}

=== FILE: smoothing.dfy ===
/**
  The 5-wide moving average used by the classifier: `np.convolve(x, ones(5)/5, mode='same')`
  when the histogram is longer than the window, and the histogram itself otherwise.
*/
module Smoothing {

  /** `window_size` in the classifier. */
  const Window: nat := 5

  /** The kernel `np.ones(5)/5`, indexed by offset; zero outside the kernel. */
  function Kernel(d: int): real {
    if 0 <= d < Window then 1.0 / Window as real else 0.0
  }

  /** The first `n` terms of the full convolution sum at output index `k`: Σ_{j<n} x[j]·Kernel(k − j). */
  function FullConvolution(x: seq<real>, k: int, n: nat): real
    requires n <= |x|
  {
    if n == 0 then 0.0 else FullConvolution(x, k, n - 1) + x[n - 1] * Kernel(k - (n - 1))
  }

  /** Element `j` of `x`, or 0 outside the array (zero padding). */
  function At(x: seq<real>, j: int): real {
    if 0 <= j < |x| then x[j] else 0.0
  }

  /** The sum of the five bins centred on `i`, out-of-range bins contributing nothing. */
  function WindowSum(x: seq<real>, i: int): real {
    At(x, i - 2) + At(x, i - 1) + At(x, i) + At(x, i + 1) + At(x, i + 2)
  }

  /**
    Convolution in numpy's 'same' mode: the full convolution has |x| + 4 entries and
    'same' keeps the |x| central ones, so output i is full entry i + 2. That makes each
    output bin the zero-padded centred window sum divided by the full window width.
  */
  function ConvolveSame(x: seq<real>): (r: seq<real>)
    ensures |r| == |x|
    ensures forall i :: 0 <= i < |x| ==> r[i] == WindowSum(x, i) / 5.0
  {
    CentralEntries(x);
    seq(|x|, i requires 0 <= i < |x| => FullConvolution(x, i + Window / 2, |x|))
  }

  /** Full entry i + 2 of the convolution is the window sum around i, over 5. */
  lemma CentralEntries(x: seq<real>)
    ensures forall i :: 0 <= i < |x| ==> FullConvolution(x, i + Window / 2, |x|) == WindowSum(x, i) / 5.0
  {
    forall i | 0 <= i < |x|
      ensures FullConvolution(x, i + Window / 2, |x|) == WindowSum(x, i) / 5.0
    {
      FullConvolutionWindow(x, i + 2, |x|);
    }
  }

  /**
    The smoothing step of `check_non_normal` and `detect_secondary_hump`: a histogram no
    longer than the window comes back unchanged.
  */
  function Smooth(x: seq<real>): (r: seq<real>)
    ensures |r| == |x|
    ensures |x| <= Window ==> r == x
    ensures |x| > Window ==> r == ConvolveSame(x)
  {
    if |x| > Window then ConvolveSame(x) else x
  }

  /** Element `j` of `x[..n]`, or 0 outside it. */
  function AtPrefix(x: seq<real>, j: int, n: nat): real
    requires n <= |x|
  {
    if 0 <= j < n then x[j] else 0.0
  }

  /** The convolution sum over the first `n` bins only sees the five bins k−4..k. */
  lemma {:induction false} FullConvolutionWindow(x: seq<real>, k: int, n: nat)
    requires n <= |x|
    ensures FullConvolution(x, k, n) ==
      (AtPrefix(x, k - 4, n) + AtPrefix(x, k - 3, n) + AtPrefix(x, k - 2, n)
       + AtPrefix(x, k - 1, n) + AtPrefix(x, k, n)) / 5.0
  {
    if n > 0 {
      FullConvolutionWindow(x, k, n - 1);
      var d := k - (n - 1);
      forall j | j != n - 1
        ensures AtPrefix(x, j, n) == AtPrefix(x, j, n - 1)
      {}
      assert AtPrefix(x, n - 1, n) == AtPrefix(x, n - 1, n - 1) + x[n - 1];
      if 0 <= d < 5 {
        assert Kernel(d) == 1.0 / 5.0;
      } else {
        assert Kernel(d) == 0.0;
      }
    }
  }

  /** Non-negative bins. */
  predicate NonNegative(x: seq<real>) {
    forall i :: 0 <= i < |x| ==> x[i] >= 0.0
  }

  /** Smoothing a non-negative histogram gives a non-negative signal that is positive wherever the input is. */
  lemma SmoothKeepsSign(x: seq<real>)
    requires NonNegative(x)
    ensures NonNegative(Smooth(x))
    ensures forall i :: 0 <= i < |x| && x[i] > 0.0 ==> Smooth(x)[i] > 0.0
  {
  }

  /** Smoothing maps the all-zero histogram to itself. */
  lemma SmoothZero(x: seq<real>)
    requires forall i :: 0 <= i < |x| ==> x[i] == 0.0
    ensures Smooth(x) == x
  {
    if |x| > Window {
      forall i | 0 <= i < |x|
        ensures Smooth(x)[i] == x[i]
      {
        assert WindowSum(x, i) == 0.0;
      }
    }
  }
}

=== FILE: wrappers.dfy ===
/** Optional values and error-carrying results shared by the model's modules. */
module Wrappers {

  /** A value that may be absent (Python's `None`). */
  datatype Option<+T> = None | Some(value: T)

  /** The outcome of an operation that can raise instead of returning. */
  datatype Result<+T, +E> = Ok(value: T) | Err(error: E)
}
